=== FILE: README.md ===
# elysia-openapi core, modelled in Dafny

elysia-openapi is a plugin that builds an OpenAPI 3.1 document from the
routes registered with an Elysia web server. This project models the pure
core of its `index.ts`:

- **the schema translator** `jsonSchemaToTypeScript`. It renders a
  JSON-Schema-shaped tree as a TypeScript-like type expression:
  - objects become `{ key?: T; ... }`;
  - arrays become `Array<T>` or `any[]`;
  - string enums become unions of quoted literals, and a `binary` string is
    `File`;
  - number and integer enums become unquoted unions;
  - untyped nodes fall back to `anyOf`, then `oneOf`, then `allOf`, then
    `any`;
  - a non-object input renders as its `typeof` name.
- **the route-path rewriter** `changePathFormat`, which turns every `:name`
  into `{name}`. With it goes the extraction of path parameters from the
  rewritten path (`path.match(/\{(\w+)\}/g)` and the loop after it).
- **the request-body example wrapper** `objectToRequestBodyProperties`. It
  replaces every value of a sample object by
  `{type: "object", properties: ...}` (recursively) or by
  `{type: typeof v, example: v}`.

Modules, one per file:

- `Text`: word characters (`\w`), `Array.prototype.join` on strings, and
  decimal rendering of integers.
- `Js`: the JavaScript semantics the code relies on. This covers
  truthiness (`Option`), exceptions (`Completion`), `typeof`, `String(v)`
  (including when it throws) and `join`'s treatment of
  `null`/`undefined`.
- `Schemas`: the schema tree. Property lists and combinator lists are
  kept in their source order.
- `Translator`: the translator itself.
- `TranslatorProperties`: what the translator promises over all schemas.
- `TranslatorExamples`: worked renderings.
- `PathFormat`: both regular-expression scans, modelled as tokenizers into
  characters and parameter names. It also builds the path-parameter
  objects.
- `RequestBody`: the wrapper, as a pure function on JSON values, with its
  inverse.

Three behaviours of the code that a reader might not expect:

- **`jsonSchemaToTypeScript` can throw.** Line 82 calls
  `Object.getOwnPropertySymbols(value)` on every property's schema, and
  that throws a `TypeError` when the schema is `null` or `undefined`. So
  `Translator.Translate` returns a `Completion`, and
  `TranslatorProperties.NullishFieldThrows` states when it throws.
- **An enum value can make it throw too.** Lines 99 and 109 convert every
  enum value to a string. An object with an own `toString` member holds
  data there rather than a function, so the conversion skips it, gets the
  object itself back from the inherited `valueOf`, and throws a
  `TypeError`; an array holding such an object throws the same way.
  `TranslatorExamples.ShadowedToStringEnumThrows` shows both.
- **`null` renders as `object`.** Line 73 returns `typeof schema`, and
  `typeof null` is `"object"`.

## Model

| member | source | states |
|---|---|---|
| Translator.Translate | index.ts:71-132 | A non-object input always renders. A schema tree renders without throwing when no property holds `null`/`undefined` and no enum holds a value whose conversion to a string throws. |
| Js.Collect | index.ts:79-86 | Mapping with a callback that may throw completes exactly when every element completes; the results are then the element values, in order. |
| Translator.RenderUntyped | index.ts:119-130 | The fallback for a missing or unrecognised `type` renders without throwing when no property in the tree holds `null`/`undefined` and no enum value's conversion throws. |
| Translator.FieldLine | index.ts:80-84 | A property line throws exactly when the property's schema is `null`/`undefined` or its rendering throws; otherwise it is `  key?: T` when the field is optional and `  key: T` when it is not. |
| Js.MapJoin | index.ts:120-128 | Mapping then joining completes exactly when every element completes. The text is then empty for no elements and the lone text for one; otherwise it is the first text, the separator, then the join of the rest. It equals `Join` of the texts in order. |
| Translator.QuotedUnion | index.ts:99 | A string enum throws exactly when converting one of its values to a string throws. Otherwise the empty enum gives the empty text and a single value gives `"v"`; a longer enum gives its first value quoted, then ` \| `, then the union of the rest. |
| TranslatorProperties.NonObjectRendersTypeof | index.ts:72-74 | A non-object schema renders as its `typeof` name; `null` renders as `object`. |
| TranslatorProperties.ObjectRendering | index.ts:77-88 | An object with `properties` renders without throwing iff no entry's schema is nullish and every entry renders. It then renders as `{\n`, one line per entry in order with `?` exactly for optional fields, joined by `;\n`, then `;\n}`. |
| TranslatorProperties.ObjectOfTwo | index.ts:79-87 | An object with two renderable properties renders as their two lines, in order, between the braces. |
| TranslatorProperties.FieldOptionality | index.ts:81-84 | A field gets `?` iff the parent has a `required` list without its key or its schema carries the optionality marker. With no list, only the marker counts; an empty list makes every field optional. |
| TranslatorProperties.EmptyObjectRendering | index.ts:78-87 | Empty `properties` render as `{\n;\n}`. |
| TranslatorProperties.OpenObjectRendering | index.ts:77-89 | An object without `properties` is `Record<string, any>`, whatever else the node holds. |
| TranslatorProperties.NullishFieldThrows | index.ts:82 | A property whose schema is `null` or `undefined` makes the whole object's translation throw. |
| TranslatorProperties.ArrayRendering | index.ts:91-95 | An array with `items` renders iff its items render, as `Array<T>`. Without `items`, or with `items` `null` or `undefined` (which fail the truthiness test), it is `any[]`. |
| TranslatorProperties.StringRendering | index.ts:97-104 | A string enum is every value quoted, in order, joined by ` \| `. It throws exactly when converting some value to a string throws, and `format` is then irrelevant. Without an enum, `binary` gives `File` and anything else `string`. |
| TranslatorProperties.StringEnumOfTwo | index.ts:98-100 | The enum `[a, b]` renders as `"a" \| "b"`, without escaping. |
| TranslatorProperties.QuotedUnionOfTwo | index.ts:99 | Quoting and joining two strings `a`, `b` gives `"a" \| "b"`. |
| TranslatorProperties.NumberRendering | index.ts:106-111 | `integer` renders exactly as `number`. An enum is its values joined by ` \| ` without quotes, and throws exactly when converting some value to a string throws; otherwise the result is `number`. |
| TranslatorProperties.IntegerEnumOfTwo | index.ts:108-110 | An integer enum `[m, n]` renders as the two decimals joined by ` \| `. |
| TranslatorProperties.ArrayJoinOfTwoNumbers | index.ts:109 | Joining two integers with ` \| ` gives their decimals around the separator. |
| TranslatorProperties.NullEnumValue | index.ts:98-110 | A `null` enum value renders as `"null"` in a string enum and as nothing in a number enum. |
| TranslatorProperties.EmptyEnumRendering | index.ts:97-111 | A present but empty enum renders as the empty string, for strings and numbers. |
| TranslatorProperties.KeywordRendering | index.ts:113-117 | `boolean` and `null` render as the fixed keywords. |
| TranslatorProperties.TypedIgnoresCombinators | index.ts:76-130 | A node with a dispatched `type` renders the same whatever its `anyOf`/`oneOf`/`allOf`. |
| TranslatorProperties.UnknownTypeIsUntyped | index.ts:119-130 | An unrecognised `type` renders as if `type` were absent. |
| TranslatorProperties.AnyOfPrecedence | index.ts:120-122 | With `anyOf` present, `oneOf` and `allOf` do not affect the result. |
| TranslatorProperties.OneOfPrecedence | index.ts:123-128 | Without `anyOf`, a present `oneOf` makes `allOf` irrelevant. |
| TranslatorProperties.OneOfRendersAsAnyOf | index.ts:120-125 | `oneOf` renders exactly as `anyOf` with the same members. |
| TranslatorProperties.CombinatorRendering | index.ts:119-130 | An untyped node renders its union members joined by ` \| ` and its `allOf` members joined by ` & `; with no combinator it is `any`. |
| TranslatorProperties.EmptyCombinatorRendering | index.ts:120-128 | A present but empty combinator list renders as the empty string and does not throw. |
| TranslatorProperties.CombinatorOfTwo | index.ts:120-128 | Two members render as `A \| B` in a union and `A & B` in an intersection. |
| TranslatorProperties.OperandsEmbedded | index.ts:71-132 | The rendering is structural: when a schema renders, each sub-schema the translator descends into renders too, and its text occurs verbatim inside the parent's text. |
| TranslatorProperties.PropertyEmbedded | index.ts:79-87 | Each property schema's rendering occurs verbatim inside its object's rendering. |
| TranslatorExamples.RequiredListExample | index.ts:79-87 | With `required: ["x"]`, field `x` is required and `y` optional: `{\n  x: A;\n  y?: B;\n}`. |
| TranslatorExamples.RequiredListInstance | index.ts:77-111 | `{x: string, y: number}` with `required: ["x"]` renders as `{\n  x: string;\n  y?: number;\n}`. |
| TranslatorExamples.MarkerExample | index.ts:81-84 | A marked property is optional even when there is no `required` list. |
| TranslatorExamples.ArrayExample | index.ts:91-104 | An array of strings renders as `Array<string>`. |
| TranslatorExamples.RenderingIsAmbiguous | index.ts:120-128 | Joining without parentheses loses structure. `allOf[anyOf[A, B], C]` and `anyOf[A, allOf[B, C]]` are different schemas that both render as `A \| B & C`. |
| TranslatorExamples.UnionInMeet | index.ts:120-128 | `allOf[anyOf[A, B], C]` renders as `A \| B & C`. |
| TranslatorExamples.MeetInUnion | index.ts:120-128 | `anyOf[A, allOf[B, C]]` renders as `A \| B & C`. |
| TranslatorExamples.AnyOfTwo | index.ts:120-122 | `anyOf[A, B]` renders as `A \| B`. |
| TranslatorExamples.AllOfTwo | index.ts:126-128 | `allOf[A, B]` renders as `A & B`. |
| TranslatorExamples.ShadowedToStringEnumThrows | index.ts:97-111 | A string or number enum holding `{toString: 1}`, directly or inside an array, throws a `TypeError`. |
| TranslatorExamples.AmbiguityExample | index.ts:97-128 | The same ambiguity with strings, numbers and booleans: both schemas render as `string \| number & boolean`. |
| Text.WordPrefixLength | index.ts:62 | The `\w+` run at the start of a text is the longest prefix made of word characters. |
| Text.DecimalRoundTrip | index.ts:109 | The decimal text of a natural number reads back as that number. |
| Text.IntToDecimal | index.ts:109 | An integer is written in canonical decimal: digits that read back as its magnitude, with no leading zero except in `0` itself, preceded by `-` exactly when it is negative. |
| Js.ToString | index.ts:99 | `String(v)` throws exactly when `v` is an object with an own `toString` member, or an array holding one at any depth. Otherwise a string gives itself, an integer its canonical decimal and a plain object `[object Object]`. |
| Js.JoinElement | index.ts:109 | `join` turns `null` and `undefined` into the empty text, and throws on an element exactly when `String` would. |
| Js.ArrayJoin | index.ts:109 | `join` throws exactly when converting some value throws. Otherwise no values give the empty text and one value its `join` conversion; more values give the first's conversion, the separator, then the join of the rest. With `,` it is `String` of the array. |
| PathFormat.ChangePathFormat | index.ts:61-63 | The result is the `{name}` form of the one maximal tokenization whose `:name` form is the path: every `:name` becomes `{name}` and every other character is kept, in order. Afterwards no `:` is followed by a word character, and the path has grown by exactly one character per parameter. |
| PathFormat.BracedLength | index.ts:62 | A parameter written as `{name}` is one character longer than `:name`; every other segment keeps its length. |
| PathFormat.ColonScan | index.ts:62 | Scanning for `:(\w+)` yields a maximal tokenization: parameter names are non-empty words, and no parameter or bare `:` is followed by a word character. |
| PathFormat.ColonScanLossless | index.ts:61-63 | Writing the scanned segments back in `:name` form gives the original path. So the rewrite changes nothing but the spelling of parameters. |
| PathFormat.ColonScanOfColoned | index.ts:62 | The scan is the only maximal tokenization: scanning the `:name` form of maximal segments gives them back. |
| PathFormat.NoParamStartUnchanged | index.ts:61-63 | A path in which no `:` is followed by a word character is left unchanged. |
| PathFormat.NoColonUnchanged | index.ts:61-63 | A path without `:` is left unchanged. |
| PathFormat.BracedHasNoParamStart | index.ts:61-63 | After rewriting, no `:` is followed by a word character. |
| PathFormat.ChangePathFormatIdempotent | index.ts:61-63 | Rewriting twice is rewriting once. |
| PathFormat.BraceScan | index.ts:233 | Scanning for `{(\w+)}` loses nothing: the segments written back in `{name}` form give the scanned text. Every parameter name is a non-empty word, and no `{` copied as a character is followed by a word and a `}`, so every `{word}` present is matched. |
| PathFormat.BraceScanOfBraced | index.ts:233 | The scan is the only maximal tokenization: scanning the `{name}` form of maximal segments gives them back. |
| PathFormat.BraceReadableIsMaximal | index.ts:233 | Segments with word-named parameters and no copied `{` are maximal for the `{(\w+)}` scan. |
| PathFormat.ScanOfNestedBraces | index.ts:233 | In `{{a}}` the match is the inner `{a}`; the outer braces are copied. |
| PathFormat.CopyingNestedBracesIsNotMaximal | index.ts:233 | Copying all of `{{a}}` as characters also writes back to `{{a}}`, but it is not maximal: the second `{` opens `{a}`. |
| PathFormat.RestoreColonForm | index.ts:61-63 | For a route without braces, reading the rewritten path back with `{name}` as `:name` restores the route. |
| PathFormat.PathParamMatches | index.ts:233 | There is one match per parameter the scan finds, in order; match i is `{` + name i + `}`, its inside is a non-empty word, and it occurs in the path. |
| PathFormat.PathParamNames | index.ts:233-236 | Stripping the braces off each match gives the brace-scan's parameter names, in order. |
| PathFormat.PathParamsOfRewrittenPath | index.ts:233-236 | The parameters extracted from a rewritten route are its `:name` parameters, in order of appearance. |
| PathFormat.PathParametersAsWritten | index.ts:233-240 | As written, one object `{name, in: "path", require: true}` is pushed per parameter, in order. |
| PathFormat.AsWrittenNeverRequired | index.ts:235-239 | As written, no path-parameter object has a `required` field, so none reads as a required path parameter. |
| PathFormat.AsWrittenCounterexample | index.ts:233-240 | The route `/:id` becomes `/{id}`, and its one parameter object is not a required path parameter. |
| PathFormat.PathParameters | index.ts:233-240 | Corrected: one object per parameter, in order, each a required parameter located in the path. |
| RequestBody.WrapValue | index.ts:34-46 | Every wrapper is a two-member object starting with `type`. Its second member is `properties` exactly when the value is a non-null object or an array, and `example` otherwise. |
| RequestBody.WrapMembers | index.ts:31-48 | Wrapping a container keeps its keys, their order and the container's kind. |
| RequestBody.ObjectToRequestBodyProperties | index.ts:30-49 | The call throws exactly when the input is a non-empty string (its index properties are read-only) or some object at any depth has an own `hasOwnProperty` member, which hides the method line 32 calls. Otherwise a container keeps its keys, every value becomes a wrapper of the documented shape, and unwrapping gives the input back; any other value is left as it is. |
| RequestBody.ShadowedNestedKeyThrows | index.ts:30-38 | A sample whose nested object has a `hasOwnProperty` member throws when the recursive call reaches that object. |
| RequestBody.WrapValueRoundTrip | index.ts:30-49 | Wrapping loses nothing: unwrapping gives back the original value at every depth. |
| RequestBody.WrapMembersRoundTrip | index.ts:31-48 | Unwrapping a wrapped container gives back the container. |
| RequestBody.WrapValueDescribes | index.ts:34-46 | Every wrapper, at every depth, is an object schema whose properties are wrappers or `{type: typeof x, example: x}` for a leaf `x`. |
| RequestBody.NullWrapper | index.ts:34-46 | `null` is not recursed into, and its wrapper claims type `object`. |

## Left out

- The `openAPI` plugin body (index.ts:134-285). It mutates a process-wide document, reads the router's history, registers routes and serves files; this is framework glue and I/O. The path-parameter loop inside it is modelled on its own.
- `getPropertiesExample` (index.ts:51-59) and the choice of a response example. Both pick with `Math.random`.
- The optionality marker. The code finds it by probing the property schema's own symbol keys for `Symbol(TypeBox.Optional)` and comparing the value with `"Optional"`. Here it is a boolean on each node. The probe's one observable effect, throwing on a `null`/`undefined` schema, is kept.
- Non-integer numbers. `JNumber` holds integers, rendered in decimal. Float formatting and the exponent form JavaScript uses from 1e21 on are not modelled.
- Js.ToString: writes the exact decimal digits of every integer. JavaScript numbers are doubles, so this matches only for magnitudes up to 2^53. Above that, most integers are not numbers at all, and those that are print as their shortest round-trip digits (`(2**60).toString()` is `"1152921504606847000"`). Modelling doubles is out of scope; enum renderings of such values (`Translator.QuotedUnion`, `Js.ArrayJoin`) inherit the limit.
- Key order and duplicate keys. The order in which `Object.entries` and `for…in` enumerate keys (integer-like keys first) is taken as given: property lists are in enumeration order. A JavaScript object has each key at most once; `Properties` and `JObject` lists are meant to have distinct keys, but the types do not enforce it, and no contract relies on it.
- Keywords of unexpected JavaScript types. A string `required`, where `includes` would test for a substring, is not modelled. Neither are non-array `enum`/`anyOf`/`oneOf`/`allOf` (where `map` would throw), non-object `properties`, or non-string `type`/`format`. Each keyword is a list or a string, or absent. A falsy keyword value (`0`, `""`, `false`) is modelled as absent, like the code's truthiness tests.
- Function, symbol and bigint values in a request body. A JSON body cannot hold them.
- Aliasing and cycles in the request-body sample. The code rewrites the sample in place. A sub-object reachable twice would be wrapped twice, and a cycle would not terminate. Here the sample is a tree and the result is a new value.
- Inherited and symbol keys. The `Json` model has only own string keys, so the `hasOwnProperty` filter at line 32 keeps every key; symbol-keyed and inherited enumerable members are not modelled. An own member named `hasOwnProperty` is modelled: it makes the call throw.
- RequestBody.ObjectToRequestBodyProperties: when the call throws, the source has already rewritten the members it visited before the throw. The model returns only the exception, not that partly rewritten sample.
- Primitive `items`. A `Primitive` schema under `items` stands for a truthy value of that kind; a falsy one (`0`, `""`, `false`) would render `any[]` like an absent `items`. `null` and `undefined` do render `any[]`.
- PathFormat.PathParamsOfRewrittenPath: stated only for routes without a literal `{`. A route that already contains `{word}` would contribute extra parameters.
- tests/index.test.ts and tests/demo.ts. They start a server and fetch over HTTP.

## Findings

| source | as written | input that shows it | evidently intended | confidence | as-written member | corrected member |
|---|---|---|---|---|---|---|
| index.ts:238 | Each path parameter object is pushed with the key `require: true`. | The route `/:id` is documented as `/{id}` with the parameter object `{name: "id", in: "path", require: true}`. That object has no `required` field, so an OpenAPI reader treats the parameter as optional. | `required: true`. This is the Parameter Object field that OpenAPI 3.1 defines, and it must be true for a parameter whose location is `path`. | not executed; high | PathFormat.AsWrittenCounterexample | PathFormat.PathParameters |

=== FILE: js.dfy ===
/** The slice of JavaScript value semantics the core relies on: optional
    values, completions that may throw, `typeof`, plain JSON-like values and
    their conversion to strings. */
module Js {
  import opened Text

  /** An optional value. `None` stands for a property that is absent or holds
      a falsy value, `Some` for one that passes a JavaScript truthiness test;
      an empty array or object is truthy, so it is `Some`. */
  datatype Option<+T> = None | Some(value: T)

  /** The only exception kind the core can raise. */
  datatype Error = TypeError

  /** The completion of an evaluation: a value, or a thrown exception that
      propagates to the caller. */
  datatype Completion<+T> = Normal(value: T) | Throw(error: Error) {
    predicate IsFailure() {
      Throw?
    }

    function PropagateFailure<U>(): Completion<U>
      requires Throw?
    {
      Throw(error)
    }

    function Extract(): T
      requires Normal?
    {
      value
    }
  }

  /** The kinds the `typeof` operator distinguishes. */
  datatype Kind = Undefined | Object | Boolean | Number | BigInt | String | Symbol | Function

  /** The name `typeof` returns for a value of kind `k`. */
  function TypeofName(k: Kind): string {
    match k
    case Undefined => "undefined"
    case Object => "object"
    case Boolean => "boolean"
    case Number => "number"
    case BigInt => "bigint"
    case String => "string"
    case Symbol => "symbol"
    case Function => "function"
  }

  /** A plain data value: what a request body or an enum literal holds.
      Numbers are integers; object members are listed in enumeration order,
      and their keys are meant to be distinct, as in any JavaScript object. */
  datatype Json =
    | JUndefined
    | JNull
    | JBool(b: bool)
    | JNumber(n: int)
    | JString(s: string)
    | JArray(elements: seq<Json>)
    | JObject(members: seq<Member>)

  datatype Member = Member(key: string, value: Json)

  /** `typeof v`; note that `typeof null` is "object". */
  function Typeof(v: Json): Kind {
    match v
    case JUndefined => Undefined
    case JNull => Object
    case JBool(_) => Boolean
    case JNumber(_) => Number
    case JString(_) => String
    case JArray(_) => Object
    case JObject(_) => Object
  }

  /** The keys of an object's members, in order. */
  function Keys(members: seq<Member>): (keys: seq<string>)
    ensures |keys| == |members|
    ensures forall i :: 0 <= i < |members| ==> keys[i] == members[i].key
  {
    seq(|members|, i requires 0 <= i < |members| => members[i].key)
  }

  /** `array.map(f)` where `f` may throw: the first exception propagates,
      otherwise every element's value is kept, in order. */
  function Collect<T>(rs: seq<Completion<T>>): (r: Completion<seq<T>>)
    ensures r.Normal? <==> forall i :: 0 <= i < |rs| ==> rs[i].Normal?
    ensures r.Normal? ==> |r.value| == |rs| && forall i :: 0 <= i < |rs| ==> r.value[i] == rs[i].value
  {
    if |rs| == 0 then Normal([])
    else
      var first :- rs[0];
      var rest :- Collect(rs[1..]);
      Normal([first] + rest)
  }

  /** The values of completions that all completed normally, in order. */
  function Values<T>(rs: seq<Completion<T>>): (vs: seq<T>)
    requires forall i :: 0 <= i < |rs| ==> rs[i].Normal?
    ensures |vs| == |rs| && forall i :: 0 <= i < |rs| ==> vs[i] == rs[i].value
  {
    if |rs| == 0 then [] else [rs[0].value] + Values(rs[1..])
  }

  /** `items.map(f).join(sep)` where `f` may throw: the first exception
      propagates; otherwise the texts in order, with `sep` between
      neighbours and nowhere else. */
  function MapJoin(rs: seq<Completion<string>>, sep: string): (r: Completion<string>)
    ensures r.Normal? <==> forall i :: 0 <= i < |rs| ==> rs[i].Normal?
    ensures r.Normal? ==> r.value == Join(Values(rs), sep)
    ensures |rs| == 0 ==> r == Normal("")
    ensures |rs| == 1 ==> r == rs[0]
    ensures |rs| >= 2 && r.Normal? ==> r.value == rs[0].value + sep + MapJoin(rs[1..], sep).value
    decreases |rs|
  {
    var texts :- Collect(rs);
    assert texts == Values(rs);
    if |rs| >= 2 then
      assert Values(rs)[1..] == Values(rs[1..]);
      Normal(Join(texts, sep))
    else
      Normal(Join(texts, sep))
  }

  /** Whether converting `v` to a string throws. An object with an own
      `toString` member holds data there, never a function, so the
      conversion skips it, finds the inherited `valueOf` returning the
      object itself, and raises a `TypeError`; an array throws when one of
      its elements does. */
  predicate ShadowsToString(v: Json)
    decreases v
  {
    match v
    case JObject(ms) => exists i :: 0 <= i < |ms| && ms[i].key == "toString"
    case JArray(es) => exists i :: 0 <= i < |es| && ShadowsToString(es[i])
    case _ => false
  }

  /** `String(v)`, which is also what a template literal `${v}` produces.
      An array converts through `join(",")`; see `ArrayJoin`. */
  function ToString(v: Json): (r: Completion<string>)
    ensures r.Throw? <==> ShadowsToString(v)
    ensures v.JString? ==> r == Normal(v.s)
    ensures v.JNumber? ==> r.Normal? && IsCanonicalDecimal(r.value, v.n)
    ensures v.JObject? && r.Normal? ==> r.value == "[object Object]"
    decreases v, 1
  {
    match v
    case JUndefined => Normal("undefined")
    case JNull => Normal("null")
    case JBool(b) => Normal(if b then "true" else "false")
    case JNumber(n) => Normal(IntToDecimal(n))
    case JString(s) => Normal(s)
    case JArray(es) => MapJoin(Elements(es), ",")
    case JObject(ms) =>
      if exists i :: 0 <= i < |ms| && ms[i].key == "toString" then Throw(TypeError)
      else Normal("[object Object]")
  }

  /** How `Array.prototype.join` converts one element: `null` and
      `undefined` become the empty string, anything else goes through
      `String`. */
  function JoinElement(v: Json): (r: Completion<string>)
    ensures r.Throw? <==> ShadowsToString(v)
    ensures (v.JNull? || v.JUndefined?) ==> r == Normal("")
    decreases v, 2
  {
    if v.JNull? || v.JUndefined? then Normal("") else ToString(v)
  }

  /** Every element of an array converted as `join` converts it. */
  function Elements(es: seq<Json>): (rs: seq<Completion<string>>)
    ensures |rs| == |es| && forall i :: 0 <= i < |es| ==> rs[i] == JoinElement(es[i])
    decreases JArray(es), 0
  {
    seq(|es|, i requires 0 <= i < |es| => assert es[i] in es; JoinElement(es[i]))
  }

  /** `values.join(sep)`: throws exactly when converting some value throws;
      otherwise each value's text in order, `null` and `undefined` as
      nothing, with `sep` between neighbours. With `","` it is `String` of
      the array. */
  function ArrayJoin(values: seq<Json>, sep: string): (r: Completion<string>)
    ensures r.Throw? <==> exists i :: 0 <= i < |values| && ShadowsToString(values[i])
    ensures |values| == 0 ==> r == Normal("")
    ensures |values| == 1 ==> r == JoinElement(values[0])
    ensures |values| >= 2 && r.Normal? ==>
              r.value == JoinElement(values[0]).value + sep + ArrayJoin(values[1..], sep).value
    ensures sep == "," ==> r == ToString(JArray(values))
    decreases |values|
  {
    if |values| >= 2 then
      assert Elements(values)[1..] == Elements(values[1..]);
      MapJoin(Elements(values), sep)
    else
      MapJoin(Elements(values), sep)
  }
}

=== FILE: path_format.dfy ===
/** Route-path rewriting (`changePathFormat`) and the extraction of path
    parameters from the rewritten path. Both are global regular-expression
    scans; each is modelled as a left-to-right tokenizer of the path into
    single characters and parameter references. */
module PathFormat {
  import opened Text
  import opened Js

  /** A piece of a path: one character copied as is, or a parameter name. */
  datatype Segment = Char(c: char) | Param(name: string)

  predicate StartsWithWordChar(seg: Segment) {
    seg.Char? && IsWordChar(seg.c)
  }

  /** The shape every tokenization by `ColonScan` has: parameter names are
      non-empty runs of word characters, and neither a parameter nor a bare
      `:` is directly followed by a word character, since the run would
      otherwise have been longer or the `:` would have started a parameter. */
  predicate Maximal(segs: seq<Segment>)
    decreases |segs|
  {
    |segs| == 0 ||
    (&& (segs[0].Param? ==> |segs[0].name| > 0 && IsWord(segs[0].name))
     && ((segs[0].Param? || segs[0] == Char(':')) && |segs| > 1 ==> !StartsWithWordChar(segs[1]))
     && Maximal(segs[1..]))
  }

  /** The scan of `/:(\w+)/g`: at each position a `:` followed by the longest
      run of word characters is one parameter; anything else is copied one
      character at a time. */
  function ColonScan(path: string): (segs: seq<Segment>)
    ensures Maximal(segs)
    ensures |segs| > 0 <==> |path| > 0
    ensures |segs| > 0 && segs[0].Char? ==> segs[0].c == path[0]
    ensures |segs| > 0 && segs[0].Param? ==> path[0] == ':'
    decreases |path|
  {
    if |path| == 0 then []
    else
      var n := WordPrefixLength(path[1..]);
      if path[0] == ':' && n > 0 then
        var rest := ColonScan(path[1 + n..]);
        assert |rest| > 0 ==> !StartsWithWordChar(rest[0]) by {
          if |rest| > 0 && rest[0].Char? {
            assert path[1 + n..][0] == path[1..][n];
          }
        }
        assert path[1..][..n] == path[1..1 + n];
        MaximalCons(Param(path[1..1 + n]), rest);
        [Param(path[1..1 + n])] + rest
      else
        var rest := ColonScan(path[1..]);
        assert path[0] == ':' && |rest| > 0 ==> !StartsWithWordChar(rest[0]) by {
          if path[0] == ':' && |rest| > 0 && rest[0].Char? {
            assert path[1..][0] == rest[0].c;
          }
        }
        MaximalCons(Char(path[0]), rest);
        [Char(path[0])] + rest
  }

  lemma MaximalCons(x: Segment, rest: seq<Segment>)
    requires x.Param? ==> |x.name| > 0 && IsWord(x.name)
    requires (x.Param? || x == Char(':')) && |rest| > 0 ==> !StartsWithWordChar(rest[0])
    requires Maximal(rest)
    ensures Maximal([x] + rest)
  {
    assert ([x] + rest)[1..] == rest;
  }

  /** The scan of `/\{(\w+)\}/g`: a `{`, a run of word characters and a `}`
      is one parameter; anything else is copied one character at a time. */
  function BraceScan(s: string): (segs: seq<Segment>)
    ensures Braced(segs) == s
    ensures forall i :: 0 <= i < |segs| && segs[i].Param? ==> |segs[i].name| > 0 && IsWord(segs[i].name)
    ensures BraceMaximal(segs)
    decreases |s|
  {
    if |s| == 0 then []
    else
      var n := WordPrefixLength(s[1..]);
      if s[0] == '{' && n > 0 && 1 + n < |s| && s[1 + n] == '}' then
        var name := s[1..1 + n];
        var rest := BraceScan(s[2 + n..]);
        assert s[1..][..n] == name;
        BracedSplit(s, n);
        BraceScanCons(Param(name), rest);
        BraceMaximalCons(Param(name), rest);
        [Param(name)] + rest
      else
        var rest := BraceScan(s[1..]);
        assert s == [s[0]] + s[1..];
        BraceScanCons(Char(s[0]), rest);
        BraceMaximalCons(Char(s[0]), rest);
        [Char(s[0])] + rest
  }

  /** The text starts with a non-empty run of word characters closed by
      `}`, so a `{` just before it opens a parameter. */
  predicate ClosesWord(t: string) {
    var n := WordPrefixLength(t);
    0 < n < |t| && t[n] == '}'
  }

  /** The shape every tokenization by `BraceScan` has: parameter names are
      non-empty runs of word characters, and no copied `{` is followed by
      a word closed by `}`, since that `{` would otherwise have opened a
      parameter. */
  predicate BraceMaximal(segs: seq<Segment>)
    decreases |segs|
  {
    |segs| == 0 ||
    (&& (segs[0].Param? ==> |segs[0].name| > 0 && IsWord(segs[0].name))
     && (segs[0] == Char('{') ==> !ClosesWord(Braced(segs[1..])))
     && BraceMaximal(segs[1..]))
  }

  lemma BraceMaximalCons(x: Segment, rest: seq<Segment>)
    requires x.Param? ==> |x.name| > 0 && IsWord(x.name)
    requires x == Char('{') ==> !ClosesWord(Braced(rest))
    requires BraceMaximal(rest)
    ensures BraceMaximal([x] + rest)
  {
    assert ([x] + rest)[1..] == rest;
  }

  /** Extending a tokenization at the front keeps parameter names words
      and adds the segment's brace form to the text. */
  lemma BraceScanCons(x: Segment, rest: seq<Segment>)
    requires x.Param? ==> |x.name| > 0 && IsWord(x.name)
    requires forall i :: 0 <= i < |rest| && rest[i].Param? ==> |rest[i].name| > 0 && IsWord(rest[i].name)
    ensures Braced([x] + rest) == BraceText(x) + Braced(rest)
    ensures forall i :: 0 <= i < |[x] + rest| && ([x] + rest)[i].Param? ==>
              |([x] + rest)[i].name| > 0 && IsWord(([x] + rest)[i].name)
  {
    WrittenCons(x, rest);
  }

  lemma BracedSplit(s: string, n: nat)
    requires 1 + n < |s| && s[0] == '{' && s[1 + n] == '}'
    ensures s == "{" + s[1..1 + n] + "}" + s[2 + n..]
  {
    assert s[..1] == "{" && s[1 + n..2 + n] == "}";
    assert s == s[..1] + s[1..1 + n] + s[1 + n..2 + n] + s[2 + n..];
  }

  /** One segment in brace form. */
  function BraceText(seg: Segment): string {
    match seg
    case Char(c) => [c]
    case Param(name) => "{" + name + "}"
  }

  /** One segment in colon form. */
  function ColonText(seg: Segment): string {
    match seg
    case Char(c) => [c]
    case Param(name) => ":" + name
  }

  /** Writes segments back with parameters as `{name}`. */
  function Braced(segs: seq<Segment>): (r: string)
    ensures |segs| > 0 ==> |r| > 0 && r[0] == (if segs[0].Param? then '{' else segs[0].c)
  {
    if |segs| == 0 then "" else BraceText(segs[0]) + Braced(segs[1..])
  }

  /** Writes segments back with parameters as `:name`. */
  function Coloned(segs: seq<Segment>): (r: string)
    ensures |segs| > 0 ==> |r| > 0 && r[0] == (if segs[0].Param? then ':' else segs[0].c)
  {
    if |segs| == 0 then "" else ColonText(segs[0]) + Coloned(segs[1..])
  }

  lemma WrittenCons(x: Segment, rest: seq<Segment>)
    ensures Braced([x] + rest) == BraceText(x) + Braced(rest)
    ensures Coloned([x] + rest) == ColonText(x) + Coloned(rest)
    ensures ParamNames([x] + rest) == (if x.Param? then [x.name] else []) + ParamNames(rest)
  {
    assert ([x] + rest)[1..] == rest;
  }

  /** The parameter names among the segments, in order. */
  function ParamNames(segs: seq<Segment>): seq<string> {
    if |segs| == 0 then []
    else (if segs[0].Param? then [segs[0].name] else []) + ParamNames(segs[1..])
  }

  /** `changePathFormat`: every `:name` becomes `{name}`. Afterwards no `:`
      starts a parameter, and the path has grown by one character per
      parameter. */
  function ChangePathFormat(path: string): (r: string)
    ensures Coloned(ColonScan(path)) == path
    ensures forall segs :: Maximal(segs) && Coloned(segs) == path ==> r == Braced(segs)
    ensures NoParamStart(r)
    ensures |r| == |path| + |ParamNames(ColonScan(path))|
  {
    var segs := ColonScan(path);
    BracedHasNoParamStart(segs);
    BracedLength(segs);
    ColonScanLossless(path);
    forall other | Maximal(other) && Coloned(other) == path
      ensures Braced(segs) == Braced(other)
    {
      ColonScanOfColoned(other);
    }
    Braced(segs)
  }

  /** Each parameter is one character longer in brace form than in colon
      form; other segments are the same. */
  lemma {:induction false} BracedLength(segs: seq<Segment>)
    ensures |Braced(segs)| == |Coloned(segs)| + |ParamNames(segs)|
    decreases |segs|
  {
    if |segs| > 0 {
      BracedLength(segs[1..]);
    }
  }

  /** A `:` followed by a maximal non-empty word is scanned as one
      parameter. */
  lemma ColonScanOfParamHead(name: string, tail: string)
    requires |name| > 0 && IsWord(name)
    requires |tail| > 0 ==> !IsWordChar(tail[0])
    ensures ColonScan(":" + name + tail) == [Param(name)] + ColonScan(tail)
  {
    var s := ":" + name + tail;
    MarkedSplit(':', name, tail);
    WordPrefixOfWordThenOther(name, tail);
    ColonScanOfParamStart(s, |name|);
  }

  /** The pieces of a marker character, a name and the text after it. */
  lemma MarkedSplit(mark: char, name: string, tail: string)
    ensures ([mark] + name + tail)[0] == mark
    ensures ([mark] + name + tail)[1..] == name + tail
    ensures ([mark] + name + tail)[1..1 + |name|] == name
    ensures ([mark] + name + tail)[1 + |name|..] == tail
  {
  }

  /** The scan at a `:` followed by a word run of length `n`. */
  lemma ColonScanOfParamStart(s: string, n: nat)
    requires |s| > 0 && s[0] == ':'
    requires n > 0 && WordPrefixLength(s[1..]) == n
    ensures ColonScan(s) == [Param(s[1..1 + n])] + ColonScan(s[1 + n..])
  {
  }

  /** A character that does not start a parameter is copied alone. */
  lemma ColonScanOfCharHead(c: char, tail: string)
    requires c == ':' && |tail| > 0 ==> !IsWordChar(tail[0])
    ensures ColonScan([c] + tail) == [Char(c)] + ColonScan(tail)
  {
    var s := [c] + tail;
    assert s[1..] == tail;
    if c == ':' {
      assert WordPrefixLength(s[1..]) == 0;
    }
  }

  /** The first step of the scan, and the text it consumed. */
  lemma ColonScanStep(path: string) returns (head: Segment, next: string)
    requires |path| > 0
    ensures |next| < |path|
    ensures ColonScan(path) == [head] + ColonScan(next)
    ensures path == ColonText(head) + next
  {
    var n := WordPrefixLength(path[1..]);
    if path[0] == ':' && n > 0 {
      head, next := Param(path[1..1 + n]), path[1 + n..];
      assert path[..1] == ":";
      assert path == path[..1] + path[1..1 + n] + path[1 + n..];
    } else {
      head, next := Char(path[0]), path[1..];
      assert path == [path[0]] + path[1..];
    }
  }

  /** The scan loses nothing: writing the segments back in colon form gives
      the path that was scanned. */
  lemma {:induction false} ColonScanLossless(path: string)
    ensures Coloned(ColonScan(path)) == path
    decreases |path|
  {
    if |path| > 0 {
      var head, next := ColonScanStep(path);
      ColonScanLossless(next);
      WrittenCons(head, ColonScan(next));
    }
  }

  /** The scan is the only maximal tokenization: scanning the colon form of
      maximal segments gives the same segments back. */
  lemma {:induction false} ColonScanOfColoned(segs: seq<Segment>)
    requires Maximal(segs)
    ensures ColonScan(Coloned(segs)) == segs
    decreases |segs|
  {
    if |segs| > 0 {
      var rest := segs[1..];
      var tail := Coloned(rest);
      ColonScanOfColoned(rest);
      assert segs == [segs[0]] + rest;
      WrittenCons(segs[0], rest);
      match segs[0]
      case Param(name) =>
        ColonScanOfParamHead(name, tail);
      case Char(c) =>
        ColonScanOfCharHead(c, tail);
    }
  }

  /** A word followed by text that does not start with a word character:
      the greedy run stops exactly at the end of the word. */
  lemma {:induction false} WordPrefixOfWordThenOther(w: string, tail: string)
    requires IsWord(w)
    requires |tail| > 0 ==> !IsWordChar(tail[0])
    ensures WordPrefixLength(w + tail) == |w|
    decreases |w|
  {
    if |w| > 0 {
      assert (w + tail)[1..] == w[1..] + tail;
      assert (w + tail)[0] == w[0];
      WordPrefixOfWordThenOther(w[1..], tail);
    } else {
      assert w + tail == tail;
    }
  }

  /** Position `i` of `s` holds a `:` followed by a word character, so a
      parameter starts there. */
  predicate StartsParam(s: string, i: int) {
    0 <= i < |s| - 1 && s[i] == ':' && IsWordChar(s[i + 1])
  }

  /** No `:` in the text starts a parameter. */
  predicate NoParamStart(s: string) {
    forall i :: 0 <= i < |s| ==> !StartsParam(s, i)
  }

  /** Text in which no `:` starts a parameter is scanned into single
      characters, so rewriting leaves it as it is. */
  lemma {:induction false} NoParamStartUnchanged(s: string)
    requires NoParamStart(s)
    ensures Braced(ColonScan(s)) == s
    decreases |s|
  {
    if |s| > 0 {
      var tail := s[1..];
      assert s == [s[0]] + tail;
      assert !StartsParam(s, 0);
      assert s[0] == ':' && |tail| > 0 ==> !IsWordChar(tail[0]);
      ColonScanOfCharHead(s[0], tail);
      assert NoParamStart(tail) by {
        forall i
          ensures !StartsParam(tail, i)
        {
          assert !StartsParam(s, i + 1);
        }
      }
      NoParamStartUnchanged(tail);
      WrittenCons(Char(s[0]), ColonScan(tail));
    }
  }

  lemma NoParamStartConcat(a: string, b: string)
    requires NoParamStart(a) && NoParamStart(b)
    requires |a| > 0 && |b| > 0 && a[|a| - 1] == ':' ==> !IsWordChar(b[0])
    ensures NoParamStart(a + b)
  {
    var s := a + b;
    forall i | 0 <= i < |s| - 1 && s[i] == ':'
      ensures !StartsParam(s, i)
    {
      if i >= |a| {
        assert !StartsParam(b, i - |a|);
        assert s[i] == b[i - |a|] && s[i + 1] == b[i - |a| + 1];
      } else if i == |a| - 1 {
        assert s[i + 1] == b[0];
      } else {
        assert !StartsParam(a, i);
        assert s[i] == a[i] && s[i + 1] == a[i + 1];
      }
    }
  }

  /** Writing maximal segments in brace form leaves no `:` that starts a
      parameter. */
  lemma {:induction false} BracedHasNoParamStart(segs: seq<Segment>)
    requires Maximal(segs)
    ensures NoParamStart(Braced(segs))
    decreases |segs|
  {
    if |segs| > 0 {
      BracedHasNoParamStart(segs[1..]);
      var head := BraceText(segs[0]);
      if segs[0].Param? {
        assert forall i :: 0 <= i < |head| ==> head[i] != ':' by {
          forall i | 0 <= i < |head|
            ensures head[i] != ':'
          {
            if 0 < i < |head| - 1 {
              assert head[i] == segs[0].name[i - 1];
            }
          }
        }
      }
      NoParamStartConcat(head, Braced(segs[1..]));
    }
  }

  /** A path without `:` is left unchanged. */
  lemma NoColonUnchanged(path: string)
    requires ':' !in path
    ensures ChangePathFormat(path) == path
  {
    NoParamStartUnchanged(path);
  }

  /** Rewriting twice is rewriting once. */
  lemma ChangePathFormatIdempotent(path: string)
    ensures ChangePathFormat(ChangePathFormat(path)) == ChangePathFormat(path)
  {
    BracedHasNoParamStart(ColonScan(path));
    NoParamStartUnchanged(ChangePathFormat(path));
  }

  /** Segments the brace scan can read back: parameter names are non-empty
      words and no copied character is `{`. */
  predicate BraceReadable(segs: seq<Segment>) {
    forall i :: 0 <= i < |segs| ==>
      (segs[i].Param? ==> |segs[i].name| > 0 && IsWord(segs[i].name)) && segs[i] != Char('{')
  }

  /** Segments without a copied `{` are maximal for the brace scan. */
  lemma {:induction false} BraceReadableIsMaximal(segs: seq<Segment>)
    requires BraceReadable(segs)
    ensures BraceMaximal(segs)
    decreases |segs|
  {
    if |segs| > 0 {
      var rest := segs[1..];
      assert BraceReadable(rest) by {
        forall i | 0 <= i < |rest|
          ensures (rest[i].Param? ==> |rest[i].name| > 0 && IsWord(rest[i].name)) && rest[i] != Char('{')
        {
          assert rest[i] == segs[i + 1];
        }
      }
      BraceReadableIsMaximal(rest);
    }
  }

  /** The brace scan is the only maximal tokenization: scanning the brace
      form of maximal segments gives the same segments back. */
  lemma {:induction false} BraceScanOfBraced(segs: seq<Segment>)
    requires BraceMaximal(segs)
    ensures BraceScan(Braced(segs)) == segs
    decreases |segs|
  {
    if |segs| > 0 {
      var rest := segs[1..];
      var tail := Braced(rest);
      assert Braced(segs) == BraceText(segs[0]) + tail;
      assert BraceMaximal(rest);
      BraceScanOfBraced(rest);
      BraceScanOfHead(segs[0], tail);
      assert segs == [segs[0]] + rest;
    }
  }

  lemma BraceScanOfHead(x: Segment, tail: string)
    requires x.Param? ==> |x.name| > 0 && IsWord(x.name)
    requires x == Char('{') ==> !ClosesWord(tail)
    ensures BraceScan(BraceText(x) + tail) == [x] + BraceScan(tail)
  {
    match x
    case Param(name) =>
      BraceScanOfParamHead(name, tail);
    case Char(c) =>
      assert (BraceText(x) + tail)[1..] == tail;
  }

  lemma BraceScanOfParamHead(name: string, tail: string)
    requires |name| > 0 && IsWord(name)
    ensures BraceScan("{" + name + "}" + tail) == [Param(name)] + BraceScan(tail)
  {
    var s := "{" + name + "}" + tail;
    assert s[1..] == name + ("}" + tail);
    WordPrefixOfWordThenOther(name, "}" + tail);
    assert s[1 + |name|] == '}';
    assert s[2 + |name|..] == tail;
    assert s[1..1 + |name|] == name;
  }

  lemma {:induction false} ColonScanIsBraceReadable(path: string)
    requires '{' !in path
    ensures BraceReadable(ColonScan(path))
    decreases |path|
  {
    var segs := ColonScan(path);
    if |path| > 0 {
      var n := WordPrefixLength(path[1..]);
      var next := if path[0] == ':' && n > 0 then path[1 + n..] else path[1..];
      assert forall k :: 0 <= k < |next| ==> next[k] == path[|path| - |next| + k];
      ColonScanIsBraceReadable(next);
      assert segs[1..] == ColonScan(next);
      forall i | 0 <= i < |segs|
        ensures (segs[i].Param? ==> |segs[i].name| > 0 && IsWord(segs[i].name)) && segs[i] != Char('{')
      {
        if i > 0 {
          assert segs[i] == segs[1..][i - 1];
        }
      }
    }
  }

  /** For a route path without braces, reading the rewritten path back
      (`{name}` as `:name`) restores the original path. */
  lemma RestoreColonForm(path: string)
    requires '{' !in path
    ensures Coloned(BraceScan(ChangePathFormat(path))) == path
  {
    ColonScanIsBraceReadable(path);
    BraceReadableIsMaximal(ColonScan(path));
    BraceScanOfBraced(ColonScan(path));
    ColonScanLossless(path);
  }

  /** `param.slice(1, -1)`: drop the first and the last character. */
  function StripBraces(m: string): string {
    if |m| >= 2 then m[1..|m| - 1] else ""
  }

  /** `path.match(/\{(\w+)\}/g)`: every matched `{name}`, in order; no
      match gives no entries. */
  function PathParamMatches(path: string): (ms: seq<string>)
    ensures |ms| == |ParamNames(BraceScan(path))|
    ensures forall i :: 0 <= i < |ms| ==> ms[i] == "{" + ParamNames(BraceScan(path))[i] + "}"
    ensures forall i :: 0 <= i < |ms| ==> |ms[i]| > 2 && IsWord(ms[i][1..|ms[i]| - 1])
    ensures forall i :: 0 <= i < |ms| ==> IsInfix(ms[i], path)
  {
    var segs := BraceScan(path);
    ParamNamesAreWords(segs);
    forall i | 0 <= i < |ParamNames(segs)|
      ensures IsInfix("{" + ParamNames(segs)[i] + "}", path)
    {
      ParamMatchInBraced(segs, i);
    }
    var names := ParamNames(BraceScan(path));
    seq(|names|, i requires 0 <= i < |names| => "{" + names[i] + "}")
  }

  /** When every parameter segment is named by a non-empty word, so is
      every parameter name listed. */
  lemma {:induction false} ParamNamesAreWords(segs: seq<Segment>)
    requires forall i :: 0 <= i < |segs| && segs[i].Param? ==> |segs[i].name| > 0 && IsWord(segs[i].name)
    ensures forall j :: 0 <= j < |ParamNames(segs)| ==> |ParamNames(segs)[j]| > 0 && IsWord(ParamNames(segs)[j])
    decreases |segs|
  {
    if |segs| > 0 {
      var rest := segs[1..];
      assert forall i :: 0 <= i < |rest| ==> rest[i] == segs[i + 1];
      ParamNamesAreWords(rest);
    }
  }

  /** Every listed parameter appears as `{name}` in the brace form of the
      segments. */
  lemma {:induction false} ParamMatchInBraced(segs: seq<Segment>, j: nat)
    requires j < |ParamNames(segs)|
    ensures IsInfix("{" + ParamNames(segs)[j] + "}", Braced(segs))
    decreases |segs|
  {
    var x := segs[0];
    var rest := segs[1..];
    var tail := Braced(rest);
    assert segs == [x] + rest;
    WrittenCons(x, rest);
    var names := ParamNames(segs);
    var target := "{" + names[j] + "}";
    if x.Param? && j == 0 {
      assert target == BraceText(x);
      InfixAtFront(target, tail);
    } else {
      var k := if x.Param? then j - 1 else j;
      assert names[j] == ParamNames(rest)[k];
      ParamMatchInBraced(rest, k);
      InfixBehind(target, BraceText(x), tail);
    }
  }

  /** The names of the path parameters, each match with its braces
      stripped. */
  function PathParamNames(path: string): (names: seq<string>)
    ensures names == ParamNames(BraceScan(path))
  {
    var ms := PathParamMatches(path);
    var names := seq(|ms|, i requires 0 <= i < |ms| => StripBraces(ms[i]));
    assert forall i :: 0 <= i < |ms| ==> StripBraces(ms[i]) == ParamNames(BraceScan(path))[i];
    names
  }

  /** The path parameters found in a rewritten path are the `:name`
      parameters of the original route path, in order of appearance. */
  lemma PathParamsOfRewrittenPath(path: string)
    requires '{' !in path
    ensures PathParamNames(ChangePathFormat(path)) == ParamNames(ColonScan(path))
  {
    ColonScanIsBraceReadable(path);
    BraceReadableIsMaximal(ColonScan(path));
    BraceReadableIsMaximal(ColonScan(path));
    BraceScanOfBraced(ColonScan(path));
  }

  /** The object pushed for one path parameter as the route builder writes
      it: the flag sits under the key `require`. */
  function PathParameterAsWritten(name: string): Json {
    JObject([Member("name", JString(name)), Member("in", JString("path")), Member("require", JBool(true))])
  }

  /** The object for one path parameter with the flag under `required`, the
      field the OpenAPI 3.1 Parameter Object defines (and which must be true
      for a parameter located in the path). */
  function PathParameter(name: string): Json {
    JObject([Member("name", JString(name)), Member("in", JString("path")), Member("required", JBool(true))])
  }

  /** A parameter object that an OpenAPI reader sees as a required path
      parameter called `name`. */
  predicate IsRequiredPathParameter(p: Json, name: string) {
    && p.JObject?
    && (exists i :: 0 <= i < |p.members| && p.members[i] == Member("name", JString(name)))
    && (exists i :: 0 <= i < |p.members| && p.members[i] == Member("in", JString("path")))
    && (exists i :: 0 <= i < |p.members| && p.members[i] == Member("required", JBool(true)))
  }

  /** The parameters pushed for a rewritten path, as written: one object per
      `{name}`, in order of appearance. */
  function PathParametersAsWritten(path: string): (ps: seq<Json>)
    ensures |ps| == |PathParamNames(path)|
    ensures forall i :: 0 <= i < |ps| ==> ps[i] == PathParameterAsWritten(PathParamNames(path)[i])
  {
    var names := PathParamNames(path);
    seq(|names|, i requires 0 <= i < |names| => PathParameterAsWritten(names[i]))
  }

  /** As written, no parameter object carries the `required` field, so every
      path parameter reads as not required. */
  lemma AsWrittenNeverRequired(path: string, i: nat)
    requires i < |PathParametersAsWritten(path)|
    ensures "required" !in Keys(PathParametersAsWritten(path)[i].members)
    ensures !IsRequiredPathParameter(PathParametersAsWritten(path)[i], PathParamNames(path)[i])
  {
    var keys := Keys(PathParametersAsWritten(path)[i].members);
    assert keys == ["name", "in", "require"];
  }

  /** The tokens of the route `/:id`. */
  lemma ScanOfSlashId()
    ensures ColonScan("/:id") == [Char('/'), Param("id")]
  {
    var segs := [Char('/'), Param("id")];
    assert Maximal(segs) by {
      MaximalCons(Param("id"), []);
      MaximalCons(Char('/'), [Param("id")]);
    }
    WrittenCons(Char('/'), [Param("id")]);
    WrittenCons(Param("id"), []);
    assert Coloned(segs) == "/:id";
    ColonScanOfColoned(segs);
  }

  /** The route `/:id` is rewritten to `/{id}`, whose only path parameter is
      `id`. */
  lemma RewriteOfSlashId()
    ensures ChangePathFormat("/:id") == "/{id}"
    ensures PathParamNames("/{id}") == ["id"]
  {
    var segs := [Char('/'), Param("id")];
    ScanOfSlashId();
    WrittenCons(Char('/'), [Param("id")]);
    WrittenCons(Param("id"), []);
    assert Braced(segs) == "/{id}";
    assert ParamNames(segs) == ["id"];
    PathParamsOfRewrittenPath("/:id");
  }

  /** The route `/:id` yields one path parameter, `id`, whose object lacks
      `required`. */
  lemma AsWrittenCounterexample()
    ensures ChangePathFormat("/:id") == "/{id}"
    ensures PathParametersAsWritten(ChangePathFormat("/:id")) == [PathParameterAsWritten("id")]
    ensures !IsRequiredPathParameter(PathParameterAsWritten("id"), "id")
  {
    RewriteOfSlashId();
    var ps := PathParametersAsWritten("/{id}");
    assert |ps| == 1 && ps[0] == PathParameterAsWritten("id");
    assert ps == [PathParameterAsWritten("id")];
    AsWrittenNeverRequired("/{id}", 0);
  }

  /** The path parameters of a route, one object per `{name}` in order of
      appearance, each a required parameter located in the path. */
  function PathParameters(path: string): (ps: seq<Json>)
    ensures |ps| == |PathParamNames(path)|
    ensures forall i :: 0 <= i < |ps| ==> IsRequiredPathParameter(ps[i], PathParamNames(path)[i])
  {
    var names := PathParamNames(path);
    var ps := seq(|names|, i requires 0 <= i < |names| => PathParameter(names[i]));
    assert forall i :: 0 <= i < |ps| ==>
      (&& ps[i].members[0] == Member("name", JString(names[i]))
       && ps[i].members[1] == Member("in", JString("path"))
       && ps[i].members[2] == Member("required", JBool(true)));
    ps
  }

  /** In `{{a}}` the inner braces form the parameter and the outer ones are
      copied. */
  lemma ScanOfNestedBraces()
    ensures BraceScan("{{a}}") == [Char('{'), Param("a"), Char('}')]
  {
    var segs := [Char('{'), Param("a"), Char('}')];
    var t := Braced([Param("a"), Char('}')]);
    assert t == "{a}}" by {
      WrittenCons(Char('}'), []);
      WrittenCons(Param("a"), [Char('}')]);
    }
    assert !ClosesWord(t) by {
      assert WordPrefixLength(t) == 0;
    }
    assert BraceMaximal(segs) by {
      BraceMaximalCons(Char('}'), []);
      BraceMaximalCons(Param("a"), [Char('}')]);
      BraceMaximalCons(Char('{'), [Param("a"), Char('}')]);
    }
    WrittenCons(Char('{'), [Param("a"), Char('}')]);
    assert Braced(segs) == "{{a}}";
    BraceScanOfBraced(segs);
  }

  /** Copying all five characters of `{{a}}` loses nothing but is not a
      maximal tokenization: the second `{` opens `{a}`. */
  lemma CopyingNestedBracesIsNotMaximal()
    ensures Braced([Char('{'), Char('{'), Char('a'), Char('}'), Char('}')]) == "{{a}}"
    ensures !BraceMaximal([Char('{'), Char('{'), Char('a'), Char('}'), Char('}')])
  {
    var s3 := [Char('a'), Char('}'), Char('}')];
    var s4 := [Char('{')] + s3;
    var s5 := [Char('{')] + s4;
    assert Braced(s3) == "a}}" by {
      WrittenCons(Char('}'), []);
      WrittenCons(Char('}'), [Char('}')]);
      WrittenCons(Char('a'), [Char('}'), Char('}')]);
    }
    assert ClosesWord("a}}") by {
      WordPrefixOfWordThenOther("a", "}}");
      assert "a" + "}}" == "a}}";
    }
    CopiedBraceOpening(s3);
    assert s5 == [Char('{'), Char('{'), Char('a'), Char('}'), Char('}')];
    WrittenCons(Char('{'), s3);
    WrittenCons(Char('{'), s4);
    assert s4[1..] == s3 && s5[1..] == s4;
  }

  lemma CopiedBraceOpening(rest: seq<Segment>)
    requires ClosesWord(Braced(rest))
    ensures !BraceMaximal([Char('{')] + rest)
  {
    assert ([Char('{')] + rest)[1..] == rest;
  }
}

=== FILE: request_body.dfy ===
/** `objectToRequestBodyProperties`: turns a sample object into the
    `properties` of an object schema, each value wrapped in a small schema
    that names its `typeof` and keeps the value as an example. The source
    rewrites the object in place; here the state it leaves the object in is
    returned as a new value. */
module RequestBody {
  import opened Js

  /** `typeof v === 'object' && v !== null`: the values the source recurses
      into. Arrays count, and their keys are their indices. */
  predicate IsContainer(v: Json) {
    v.JObject? || v.JArray?
  }

  /** The wrapper that replaces one value. */
  function WrapValue(v: Json): (w: Json)
    ensures w.JObject? && |w.members| == 2 && w.members[0].key == "type"
    ensures IsContainer(v) <==> w.members[1].key == "properties"
    decreases v, 1
  {
    if IsContainer(v) then
      JObject([Member("type", JString("object")), Member("properties", WrapMembers(v))])
    else
      JObject([Member("type", JString(TypeofName(Typeof(v)))), Member("example", v)])
  }

  /** The loop over the container's own keys: every value is replaced by its
      wrapper; keys, their order and the kind of container do not change. */
  function WrapMembers(c: Json): (r: Json)
    requires IsContainer(c)
    ensures c.JObject? ==> r.JObject? && Keys(r.members) == Keys(c.members)
    ensures c.JArray? ==> r.JArray? && |r.elements| == |c.elements|
    decreases c, 0
  {
    match c
    case JObject(ms) =>
      var ms' := seq(|ms|, i requires 0 <= i < |ms| => Member(ms[i].key, WrapValue(ms[i].value)));
      assert Keys(ms') == Keys(ms);
      JObject(ms')
    case JArray(es) => JArray(seq(|es|, i requires 0 <= i < |es| => WrapValue(es[i])))
  }

  /** Some object at any depth of `v` has an own member keyed
      `hasOwnProperty`. That member hides the inherited method, so the
      loop's `obj.hasOwnProperty(key)` call on that object throws a
      `TypeError` (the member holds data, never a function). */
  predicate ShadowsHasOwnProperty(v: Json)
    decreases v
  {
    match v
    case JObject(ms) =>
      exists i :: 0 <= i < |ms| && (ms[i].key == "hasOwnProperty" || ShadowsHasOwnProperty(ms[i].value))
    case JArray(es) =>
      exists i :: 0 <= i < |es| && ShadowsHasOwnProperty(es[i])
    case _ => false
  }

  /** `objectToRequestBodyProperties(obj)`, returning the object as the call
      leaves it. An object or array has every value wrapped, unless an
      object somewhere inside shadows `hasOwnProperty`. A non-empty string
      is enumerated by index too, and assigning to its read-only index
      properties throws in strict mode; any other primitive has no own
      enumerable keys and is left alone. */
  function ObjectToRequestBodyProperties(obj: Json): (r: Completion<Json>)
    ensures r.Throw? <==> (obj.JString? && |obj.s| > 0) || ShadowsHasOwnProperty(obj)
    ensures r.Normal? && IsContainer(obj) ==> UnwrapMembers(r.value) == obj
    ensures r.Normal? && obj.JObject? ==>
              && r.value.JObject? && Keys(r.value.members) == Keys(obj.members)
              && forall i :: 0 <= i < |r.value.members| ==> Describes(r.value.members[i].value)
    ensures r.Normal? && obj.JArray? ==>
              && r.value.JArray? && |r.value.elements| == |obj.elements|
              && forall i :: 0 <= i < |r.value.elements| ==> Describes(r.value.elements[i])
    ensures r.Normal? && !IsContainer(obj) ==> r.value == obj
  {
    if IsContainer(obj) then
      if ShadowsHasOwnProperty(obj) then Throw(TypeError)
      else
        WrapMembersRoundTrip(obj);
        WrapValueDescribes(obj);
        Normal(WrapMembers(obj))
    else if obj.JString? && |obj.s| > 0 then Throw(TypeError)
    else Normal(obj)
  }

  /** A sample whose nested object has a `hasOwnProperty` member: the
      recursive call on that object throws. */
  lemma ShadowedNestedKeyThrows(n: int)
    ensures ObjectToRequestBodyProperties(
              JObject([Member("user", JObject([Member("hasOwnProperty", JNumber(n))]))])).Throw?
  {
    var inner := JObject([Member("hasOwnProperty", JNumber(n))]);
    assert inner.members[0].key == "hasOwnProperty";
    assert ShadowsHasOwnProperty(inner);
    assert JObject([Member("user", inner)]).members[0].value == inner;
  }

  /** Reads a wrapper back: the example of a primitive wrapper, the
      unwrapped properties of an object wrapper. Anything else is returned
      unchanged. */
  function UnwrapValue(w: Json): Json
    decreases w, 1
  {
    match w
    case JObject(ms) =>
      if |ms| == 2 && ms[0].key == "type" && ms[1].key == "properties" && IsContainer(ms[1].value) then
        UnwrapMembers(ms[1].value)
      else if |ms| == 2 && ms[0].key == "type" && ms[1].key == "example" then
        ms[1].value
      else w
    case _ => w
  }

  function UnwrapMembers(c: Json): Json
    decreases c, 0
  {
    match c
    case JObject(ms) => JObject(seq(|ms|, i requires 0 <= i < |ms| => Member(ms[i].key, UnwrapValue(ms[i].value))))
    case JArray(es) => JArray(seq(|es|, i requires 0 <= i < |es| => UnwrapValue(es[i])))
    case _ => c
  }

  /** Wrapping loses nothing: reading the wrappers back gives the original
      value, at every depth. */
  lemma {:induction false} WrapValueRoundTrip(v: Json)
    ensures UnwrapValue(WrapValue(v)) == v
    decreases v, 1
  {
    if IsContainer(v) {
      WrapMembersRoundTrip(v);
    }
  }

  lemma {:induction false} WrapMembersRoundTrip(c: Json)
    requires IsContainer(c)
    ensures UnwrapMembers(WrapMembers(c)) == c
    decreases c, 0
  {
    match c
    case JObject(ms) =>
      var back := UnwrapMembers(WrapMembers(c)).members;
      forall i | 0 <= i < |ms|
        ensures back[i] == ms[i]
      {
        WrapValueRoundTrip(ms[i].value);
      }
      assert back == ms;
    case JArray(es) =>
      var back := UnwrapMembers(WrapMembers(c)).elements;
      forall i | 0 <= i < |es|
        ensures back[i] == es[i]
      {
        WrapValueRoundTrip(es[i]);
      }
      assert back == es;
  }

  /** The shape every wrapper has: an object schema `{type: "object",
      properties}` whose properties are wrappers again, or
      `{type: typeof x, example: x}` for a value `x` that is not recursed
      into. */
  predicate Describes(w: Json)
    decreases w
  {
    && w.JObject? && |w.members| == 2
    && w.members[0].key == "type"
    && var x := w.members[1].value;
       if x.JObject? then
         && w.members[1].key == "properties" && w.members[0].value == JString("object")
         && forall i :: 0 <= i < |x.members| ==> Describes(x.members[i].value)
       else if x.JArray? then
         && w.members[1].key == "properties" && w.members[0].value == JString("object")
         && forall i :: 0 <= i < |x.elements| ==> Describes(x.elements[i])
       else
         w.members[1].key == "example" && w.members[0].value == JString(TypeofName(Typeof(x)))
  }

  /** Every wrapper the source builds has that shape; in particular the
      `type` of a primitive wrapper is the `typeof` of its example. */
  lemma {:induction false} WrapValueDescribes(v: Json)
    ensures Describes(WrapValue(v))
    decreases v
  {
    match v
    case JObject(ms) =>
      var ws := WrapMembers(v).members;
      forall i | 0 <= i < |ms|
        ensures Describes(ws[i].value)
      {
        WrapValueDescribes(ms[i].value);
      }
    case JArray(es) =>
      var ws := WrapMembers(v).elements;
      forall i | 0 <= i < |es|
        ensures Describes(ws[i])
      {
        WrapValueDescribes(es[i]);
      }
    case _ =>
  }

  /** `null` is not recursed into, and since `typeof null` is "object" its
      wrapper claims the type `object` while holding `null` as example. */
  lemma NullWrapper()
    ensures WrapValue(JNull) == JObject([Member("type", JString("object")), Member("example", JNull)])
  {
  }
}

=== FILE: schema.dfy ===
/** The JSON-Schema-shaped tree the translator reads. */
module Schemas {
  import opened Js

  /** `typeof` of a value that is neither an object nor `null`. */
  type PrimitiveKind = k: Kind | k != Kind.Object witness Kind.Undefined

  /** One entry of a `properties` mapping. */
  datatype Property = Property(key: string, schema: Schema)

  /** The `properties` keyword: absent (or falsy), or an ordered mapping
      listed in the order `Object.entries` enumerates it. Its keys are
      meant to be distinct, as in any JavaScript object. */
  datatype Properties = NoProperties | Properties(entries: seq<Property>)

  /** An `anyOf`, `oneOf` or `allOf` keyword: absent (or falsy), or a list
      of member schemas. */
  datatype SubSchemas = NoSubSchemas | SubSchemas(members: seq<Schema>)

  /** A schema as the translator sees it. A non-object value is kept only
      through its `typeof`; `null` is separate because `typeof null` is
      "object" although it is not an object. A `Node` is an object whose
      keywords are read by name; `optionalMarker` is the optionality tag
      the schema-definition library attaches to a property's schema as
      symbol-keyed metadata. */
  datatype Schema =
    | Primitive(kind: PrimitiveKind)
    | Null
    | Node(
        ty: Option<string>,
        properties: Properties,
        required: Option<seq<string>>,
        items: Option<Schema>,
        enumValues: Option<seq<Json>>,
        format: Option<string>,
        anyOf: SubSchemas,
        oneOf: SubSchemas,
        allOf: SubSchemas,
        optionalMarker: bool)

  /** `null` and `undefined`: the values that cannot be converted to an
      object, so asking them for their own symbol keys throws. */
  predicate IsNullish(s: Schema) {
    s.Null? || s == Primitive(Kind.Undefined)
  }

  /** Whether a property is rendered optional: the parent lists required
      keys and this one is not among them, or the property's schema carries
      the optionality marker. With no `required` list only the marker
      counts. */
  predicate IsOptionalField(required: Option<seq<string>>, p: Property) {
    (required.Some? && p.key !in required.value) || (p.schema.Node? && p.schema.optionalMarker)
  }

  /** No property anywhere in the tree holds `null` or `undefined` as its
      schema, and no enum anywhere lists a value whose conversion to a
      string throws. */
  predicate NoThrowingValues(s: Schema)
    decreases s
  {
    match s
    case Node(_, properties, _, items, enumValues, _, anyOf, oneOf, allOf, _) =>
      && (enumValues.Some? ==>
            forall i :: 0 <= i < |enumValues.value| ==> !ShadowsToString(enumValues.value[i]))
      && (properties.Properties? ==>
            forall i :: 0 <= i < |properties.entries| ==>
              !IsNullish(properties.entries[i].schema) && NoThrowingValues(properties.entries[i].schema))
      && (items.Some? ==> NoThrowingValues(items.value))
      && (anyOf.SubSchemas? ==> forall i :: 0 <= i < |anyOf.members| ==> NoThrowingValues(anyOf.members[i]))
      && (oneOf.SubSchemas? ==> forall i :: 0 <= i < |oneOf.members| ==> NoThrowingValues(oneOf.members[i]))
      && (allOf.SubSchemas? ==> forall i :: 0 <= i < |allOf.members| ==> NoThrowingValues(allOf.members[i]))
    case _ => true
  }
}

=== FILE: text.dfy ===
/** Character classes, joining and decimal rendering on strings (`seq<char>`),
    the string primitives the translator and the path rewriter are built from. */
module Text {

  /** The regular-expression class `\w`: ASCII letters, digits and underscore. */
  predicate IsWordChar(c: char) {
    ('A' <= c <= 'Z') || ('a' <= c <= 'z') || ('0' <= c <= '9') || c == '_'
  }

  predicate IsWord(s: string) {
    forall i :: 0 <= i < |s| ==> IsWordChar(s[i])
  }

  /** Length of the longest prefix of `s` made of word characters: what a
      greedy `\w+` (or `\w*`) consumes at the start of `s`. */
  function WordPrefixLength(s: string): (n: nat)
    ensures n <= |s|
    ensures IsWord(s[..n])
    ensures n < |s| ==> !IsWordChar(s[n])
  {
    if |s| == 0 || !IsWordChar(s[0]) then 0
    else
      var m := WordPrefixLength(s[1..]);
      assert s[..1 + m] == [s[0]] + s[1..][..m];
      1 + m
  }

  /** `Array.prototype.join(sep)` on an array of strings. */
  function Join(parts: seq<string>, sep: string): string
  {
    if |parts| == 0 then ""
    else if |parts| == 1 then parts[0]
    else parts[0] + sep + Join(parts[1..], sep)
  }

  /** `a` occurs as a contiguous piece of `b`. */
  predicate IsInfix(a: string, b: string) {
    exists i, j :: 0 <= i <= j <= |b| && b[i..j] == a
  }

  lemma InfixOfWhole(a: string)
    ensures IsInfix(a, a)
  {
    assert a[0..|a|] == a;
  }

  /** An infix of `b` is an infix of anything that contains `b`. */
  lemma InfixInContext(a: string, pre: string, b: string, post: string)
    requires IsInfix(a, b)
    ensures IsInfix(a, pre + b + post)
  {
    var i, j :| 0 <= i <= j <= |b| && b[i..j] == a;
    var w := pre + b + post;
    assert w[|pre| + i..|pre| + j] == b[i..j];
  }

  lemma InfixAtFront(a: string, post: string)
    ensures IsInfix(a, a + post)
  {
    assert (a + post)[0..|a|] == a;
  }

  lemma InfixBehind(a: string, pre: string, b: string)
    requires IsInfix(a, b)
    ensures IsInfix(a, pre + b)
  {
    var i, j :| 0 <= i <= j <= |b| && b[i..j] == a;
    assert (pre + b)[|pre| + i..|pre| + j] == b[i..j];
  }

  /** Every part appears, unchanged, in the joined string. */
  lemma {:induction false} JoinContainsParts(parts: seq<string>, sep: string, i: nat)
    requires i < |parts|
    ensures IsInfix(parts[i], Join(parts, sep))
  {
    if |parts| == 1 {
      InfixOfWhole(parts[0]);
    } else {
      var rest := parts[1..];
      var joined := Join(rest, sep);
      assert Join(parts, sep) == parts[0] + sep + joined;
      if i == 0 {
        InfixAtFront(parts[0], sep + joined);
        assert parts[0] + (sep + joined) == parts[0] + sep + joined;
      } else {
        assert parts[i] == rest[i - 1];
        JoinContainsParts(rest, sep, i - 1);
        InfixBehind(rest[i - 1], parts[0] + sep, joined);
      }
    }
  }

  function DigitChar(d: nat): (c: char)
    requires d < 10
    ensures '0' <= c <= '9'
  {
    "0123456789"[d]
  }

  predicate IsDigits(s: string) {
    forall i :: 0 <= i < |s| ==> '0' <= s[i] <= '9'
  }

  /** Decimal digits of a natural number, most significant first, with no
      leading zero. */
  function NatToDecimal(n: nat): (r: string)
    ensures |r| > 0 && IsDigits(r)
    ensures r[0] == '0' ==> n == 0 && r == "0"
    decreases n
  {
    if n < 10 then [DigitChar(n)]
    else NatToDecimal(n / 10) + [DigitChar(n % 10)]
  }

  /** The value a string of decimal digits denotes. */
  function DecimalValue(s: string): nat
    requires IsDigits(s)
  {
    if |s| == 0 then 0
    else DecimalValue(s[..|s| - 1]) * 10 + (s[|s| - 1] as int - '0' as int)
  }

  /** Reading back the rendering yields the number rendered. */
  lemma {:induction false} DecimalRoundTrip(n: nat)
    ensures DecimalValue(NatToDecimal(n)) == n
  {
    if n >= 10 {
      DecimalRoundTrip(n / 10);
      var r := NatToDecimal(n);
      assert r[..|r| - 1] == NatToDecimal(n / 10);
    }
  }

  /** `r` is the canonical decimal text of `n`: digits that denote `|n|`
      with no leading zero (other than `0` itself), preceded by `-` exactly
      when `n` is negative. */
  predicate IsCanonicalDecimal(r: string, n: int) {
    if n >= 0 then
      |r| > 0 && IsDigits(r) && DecimalValue(r) == n && (r[0] == '0' ==> r == "0")
    else
      |r| > 1 && r[0] == '-' && IsDigits(r[1..]) && DecimalValue(r[1..]) == -n && r[1] != '0'
  }

  /** Decimal rendering of an integer, with a leading `-` when negative. */
  function IntToDecimal(n: int): (r: string)
    ensures IsCanonicalDecimal(r, n)
  {
    if n < 0 then
      DecimalRoundTrip(-n);
      var d := NatToDecimal(-n);
      assert ("-" + d)[1..] == d;
      "-" + d
    else
      DecimalRoundTrip(n);
      NatToDecimal(n)
  }
}

=== FILE: translator.dfy ===
/** The schema-to-type-string translator (`jsonSchemaToTypeScript`): renders
    a JSON-Schema-shaped tree as a TypeScript-like type expression. */
module Translator {
  import opened Text
  import opened Js
  import opened Schemas

  /** One line of an object rendering, `  key?: T` or `  key: T`, given the
      completion of rendering the property's own schema. Looking for the
      optionality marker among the schema's own symbol keys happens first,
      and throws when that schema is `null` or `undefined`. */
  function FieldLine(required: Option<seq<string>>, p: Property, rendered: Completion<string>): (r: Completion<string>)
    ensures r.Normal? <==> !IsNullish(p.schema) && rendered.Normal?
    ensures r.Normal? && IsOptionalField(required, p) ==> r.value == "  " + p.key + "?: " + rendered.value
    ensures r.Normal? && !IsOptionalField(required, p) ==> r.value == "  " + p.key + ": " + rendered.value
  {
    if IsNullish(p.schema) then Throw(TypeError)
    else
      var t :- rendered;
      Normal("  " + p.key + (if IsOptionalField(required, p) then "?" else "") + ": " + t)
  }

  /** One enum value in double quotes; not escaped. */
  function Quote(v: Json): (r: Completion<string>)
    ensures r.Throw? <==> ShadowsToString(v)
    ensures r.Normal? ==> r.value == "\"" + ToString(v).value + "\""
  {
    var t :- ToString(v);
    Normal("\"" + t + "\"")
  }

  /** `values.map(v => `"${v}"`).join(" | ")`: throws exactly when
      converting some value throws; otherwise every value quoted, in order,
      with ` | ` between neighbours. */
  function QuotedUnion(values: seq<Json>): (r: Completion<string>)
    ensures r.Throw? <==> exists i :: 0 <= i < |values| && ShadowsToString(values[i])
    ensures |values| == 0 ==> r == Normal("")
    ensures |values| == 1 ==> r == Quote(values[0])
    ensures |values| >= 2 && r.Normal? ==> r.value == Quote(values[0]).value + " | " + QuotedUnion(values[1..]).value
    decreases |values|
  {
    if |values| >= 2 then
      assert QuoteEach(values)[1..] == QuoteEach(values[1..]);
      MapJoin(QuoteEach(values), " | ")
    else
      MapJoin(QuoteEach(values), " | ")
  }

  /** Every enum value quoted, in order. */
  function QuoteEach(values: seq<Json>): (rs: seq<Completion<string>>)
    ensures |rs| == |values| && forall i :: 0 <= i < |values| ==> rs[i] == Quote(values[i])
  {
    seq(|values|, i requires 0 <= i < |values| => Quote(values[i]))
  }

  /** The translator. Objects, arrays, strings, numbers, booleans and `null`
      are dispatched on `type`; an `items` that is `null` or `undefined`
      fails the truthiness test like a missing one; any other or missing
      `type` falls back to `RenderUntyped`. A non-object input renders as
      its `typeof`. */
  function Translate(s: Schema): (r: Completion<string>)
    ensures !s.Node? ==> r.Normal?
    ensures NoThrowingValues(s) ==> r.Normal?
    decreases s, 1
  {
    match s
    case Primitive(kind) => Normal(TypeofName(kind))
    case Null => Normal(TypeofName(Kind.Object))
    case Node(_, _, _, _, _, _, _, _, _, _) =>
      if s.ty == Some("object") then
        match s.properties
        case Properties(entries) =>
          var lines :- Collect(seq(|entries|, i requires 0 <= i < |entries| =>
                                   FieldLine(s.required, entries[i], Translate(entries[i].schema))));
          Normal("{\n" + Join(lines, ";\n") + ";\n}")
        case NoProperties => Normal("Record<string, any>")
      else if s.ty == Some("array") then
        match s.items
        case Some(item) =>
          if IsNullish(item) then Normal("any[]")
          else
            var t :- Translate(item);
            Normal("Array<" + t + ">")
        case None => Normal("any[]")
      else if s.ty == Some("string") then
        match s.enumValues
        case Some(values) => QuotedUnion(values)
        case None => if s.format == Some("binary") then Normal("File") else Normal("string")
      else if s.ty == Some("number") || s.ty == Some("integer") then
        match s.enumValues
        case Some(values) => ArrayJoin(values, " | ")
        case None => Normal("number")
      else if s.ty == Some("boolean") then Normal("boolean")
      else if s.ty == Some("null") then Normal("null")
      else RenderUntyped(s)
  }

  /** A node whose `type` the dispatch does not recognise: the combinators,
      `anyOf` before `oneOf` before `allOf`, and then `any`. */
  function RenderUntyped(s: Schema): (r: Completion<string>)
    requires s.Node?
    ensures NoThrowingValues(s) ==> r.Normal?
    decreases s, 0
  {
    match (s.anyOf, s.oneOf, s.allOf)
    case (SubSchemas(_), _, _) => MapJoin(RenderEach(s.anyOf), " | ")
    case (NoSubSchemas, SubSchemas(_), _) => MapJoin(RenderEach(s.oneOf), " | ")
    case (NoSubSchemas, NoSubSchemas, SubSchemas(_)) => MapJoin(RenderEach(s.allOf), " & ")
    case (NoSubSchemas, NoSubSchemas, NoSubSchemas) => Normal("any")
  }

  /** Every member of a combinator rendered, in order; an absent combinator
      has none. */
  function RenderEach(subs: SubSchemas): (rs: seq<Completion<string>>)
    ensures subs.SubSchemas? ==>
              |rs| == |subs.members| && forall i :: 0 <= i < |subs.members| ==> rs[i] == Translate(subs.members[i])
    decreases subs, 0
  {
    match subs
    case NoSubSchemas => []
    case SubSchemas(ms) => seq(|ms|, i requires 0 <= i < |ms| => Translate(ms[i]))
  }
}

=== FILE: translator_examples.dfy ===
/** Worked renderings of small schemas, and one consequence of how unions
    and intersections are joined: the rendering does not parenthesise, so
    schemas of different structure can render to the same text. */
module TranslatorExamples {
  import opened Text
  import opened Js
  import opened Schemas
  import opened Translator
  import opened TranslatorProperties

  /** A node with only `type` set. */
  function Typed(ty: string): Schema {
    Node(Some(ty), NoProperties, None, None, None, None, NoSubSchemas, NoSubSchemas, NoSubSchemas, false)
  }

  /** A node with `type` and `enum` set. */
  function Enumerated(ty: string, values: seq<Json>): Schema {
    Node(Some(ty), NoProperties, None, None, Some(values), None, NoSubSchemas, NoSubSchemas, NoSubSchemas, false)
  }

  /** An object node with the given `properties` and `required`. */
  function ObjectOf(entries: seq<Property>, required: Option<seq<string>>): Schema {
    Node(Some("object"), Properties(entries), required, None, None, None, NoSubSchemas, NoSubSchemas, NoSubSchemas, false)
  }

  /** An array node with the given `items`. */
  function ArrayOf(item: Schema): Schema {
    Node(Some("array"), NoProperties, None, Some(item), None, None, NoSubSchemas, NoSubSchemas, NoSubSchemas, false)
  }

  /** An untyped node with only `anyOf` set. */
  function AnyOf(members: seq<Schema>): Schema {
    Node(None, NoProperties, None, None, None, None, SubSchemas(members), NoSubSchemas, NoSubSchemas, false)
  }

  /** An untyped node with only `allOf` set. */
  function AllOf(members: seq<Schema>): Schema {
    Node(None, NoProperties, None, None, None, None, NoSubSchemas, NoSubSchemas, SubSchemas(members), false)
  }

  /** With `required: ["x"]`, property `x` is rendered required (unless its
      own schema is marked optional) and property `y` optional, whatever
      their schemas render as. */
  lemma RequiredListExample(a: Schema, b: Schema)
    requires !IsNullish(a) && !IsNullish(b) && !(a.Node? && a.optionalMarker)
    requires Translate(a).Normal? && Translate(b).Normal?
    ensures Translate(ObjectOf([Property("x", a), Property("y", b)], Some(["x"])))
         == Normal("{\n  x: " + Translate(a).value + ";\n  y?: " + Translate(b).value + ";\n}")
  {
    var s := ObjectOf([Property("x", a), Property("y", b)], Some(["x"]));
    var ta, tb := Translate(a).value, Translate(b).value;
    ObjectOfTwo(s, Property("x", a), Property("y", b));
    assert OptionalMark(s.required, Property("x", a)) == "";
    assert "y" !in ["x"] by {
      assert "y"[0] != "x"[0];
    }
    assert OptionalMark(s.required, Property("y", b)) == "?";
    assert Translate(s) == Normal("{\n" + (("  " + "x" + "" + ": " + ta) + ";\n" + ("  " + "y" + "?" + ": " + tb)) + ";\n}");
    TwoFieldText(ta, tb);
  }

  /** `{x: string, y: number}` with `required: ["x"]`. */
  lemma RequiredListInstance()
    ensures Translate(ObjectOf([Property("x", Typed("string")), Property("y", Typed("number"))], Some(["x"])))
         == Normal("{\n  x: string;\n  y?: number;\n}")
  {
    StringRendering(Typed("string"), None);
    NumberRendering(Typed("number"));
    RequiredListExample(Typed("string"), Typed("number"));
    RequiredListText();
  }

  lemma RequiredListText()
    ensures "{\n  x: " + "string" + ";\n  y?: " + "number" + ";\n}" == "{\n  x: string;\n  y?: number;\n}"
  {
    assert "{\n  x: " + "string" == "{\n  x: string";
    assert "{\n  x: string" + ";\n  y?: " == "{\n  x: string;\n  y?: ";
    assert "{\n  x: string;\n  y?: " + "number" == "{\n  x: string;\n  y?: number";
    assert "{\n  x: string;\n  y?: number" + ";\n}" == "{\n  x: string;\n  y?: number;\n}";
  }

  lemma TwoFieldText(ta: string, tb: string)
    ensures "{\n" + (("  " + "x" + "" + ": " + ta) + ";\n" + ("  " + "y" + "?" + ": " + tb)) + ";\n}"
         == "{\n  x: " + ta + ";\n  y?: " + tb + ";\n}"
  {
    assert "  " + "x" + "" + ": " == "  x: ";
    assert "  " + "y" + "?" + ": " == "  y?: ";
    assert "{\n" + "  x: " == "{\n  x: ";
    assert ";\n" + "  y?: " == ";\n  y?: ";
  }

  /** A property whose schema carries the optionality marker is optional
      even when no `required` list exists. */
  lemma MarkerExample(b: Schema)
    requires b.Node? && b.optionalMarker && Translate(b).Normal?
    ensures Translate(ObjectOf([Property("a", b)], None)) == Normal("{\n  a?: " + Translate(b).value + ";\n}")
  {
    var es := [Property("a", b)];
    var s := ObjectOf(es, None);
    ObjectRendering(s);
    assert Translate(s).Normal?;
    var t := Translate(b).value;
    var lines := seq(|es|, i requires 0 <= i < |es| && Translate(es[i].schema).Normal? =>
                   "  " + es[i].key + OptionalMark(s.required, es[i]) + ": " + Translate(es[i].schema).value);
    assert lines == ["  " + "a" + "?" + ": " + t];
    assert Join(lines, ";\n") == lines[0];
    assert "  " + "a" + "?" + ": " == "  a?: ";
    assert Translate(s).value == "{\n" + ("  a?: " + t) + ";\n}";
    OneFieldText(t);
  }

  lemma OneFieldText(t: string)
    ensures "{\n" + ("  a?: " + t) + ";\n}" == "{\n  a?: " + t + ";\n}"
  {
    assert "{\n" + "  a?: " == "{\n  a?: ";
  }

  /** `Array<string>` for an array of strings. */
  lemma ArrayExample()
    ensures Translate(ArrayOf(Typed("string"))) == Normal("Array<string>")
  {
    StringRendering(Typed("string"), None);
    ArrayRendering(ArrayOf(Typed("string")));
    assert "Array<" + "string" + ">" == "Array<string>";
  }

  /** An intersection of a union and a third schema, and a union of a schema
      and an intersection, render to the same text although they denote
      different types: members are joined without parentheses. */
  lemma RenderingIsAmbiguous(a: Schema, b: Schema, c: Schema)
    requires Translate(a).Normal? && Translate(b).Normal? && Translate(c).Normal?
    ensures AllOf([AnyOf([a, b]), c]) != AnyOf([a, AllOf([b, c])])
    ensures Translate(AllOf([AnyOf([a, b]), c]))
         == Normal(Translate(a).value + " | " + Translate(b).value + " & " + Translate(c).value)
    ensures Translate(AnyOf([a, AllOf([b, c])]))
         == Normal(Translate(a).value + " | " + Translate(b).value + " & " + Translate(c).value)
  {
    UnionInMeet(a, b, c);
    MeetInUnion(a, b, c);
  }

  lemma UnionInMeet(a: Schema, b: Schema, c: Schema)
    requires Translate(a).Normal? && Translate(b).Normal? && Translate(c).Normal?
    ensures Translate(AllOf([AnyOf([a, b]), c]))
         == Normal(Translate(a).value + " | " + Translate(b).value + " & " + Translate(c).value)
  {
    AnyOfTwo(a, b);
    AllOfTwo(AnyOf([a, b]), c);
  }

  lemma MeetInUnion(a: Schema, b: Schema, c: Schema)
    requires Translate(a).Normal? && Translate(b).Normal? && Translate(c).Normal?
    ensures Translate(AnyOf([a, AllOf([b, c])]))
         == Normal(Translate(a).value + " | " + Translate(b).value + " & " + Translate(c).value)
  {
    AllOfTwo(b, c);
    AnyOfTwo(a, AllOf([b, c]));
    Reassociate(Translate(a).value, Translate(b).value, Translate(c).value);
  }

  lemma AnyOfTwo(a: Schema, b: Schema)
    requires Translate(a).Normal? && Translate(b).Normal?
    ensures Translate(AnyOf([a, b])) == Normal(Translate(a).value + " | " + Translate(b).value)
  {
    CombinatorOfTwo(AnyOf([a, b]), a, b);
  }

  lemma AllOfTwo(a: Schema, b: Schema)
    requires Translate(a).Normal? && Translate(b).Normal?
    ensures Translate(AllOf([a, b])) == Normal(Translate(a).value + " & " + Translate(b).value)
  {
    CombinatorOfTwo(AllOf([a, b]), a, b);
  }

  lemma Reassociate(x: string, y: string, z: string)
    ensures x + " | " + (y + " & " + z) == x + " | " + y + " & " + z
  {
  }

  lemma AmbiguityText()
    ensures "string" + " | " + "number" + " & " + "boolean" == "string | number & boolean"
  {
    assert "string" + " | " == "string | ";
    assert "string | " + "number" == "string | number";
    assert "string | number" + " & " == "string | number & ";
  }

  /** With strings, numbers and booleans: both
      `allOf[anyOf[string, number], boolean]` and
      `anyOf[string, allOf[number, boolean]]` render as
      `string | number & boolean`. */
  lemma AmbiguityExample()
    ensures Translate(AllOf([AnyOf([Typed("string"), Typed("number")]), Typed("boolean")]))
         == Translate(AnyOf([Typed("string"), AllOf([Typed("number"), Typed("boolean")])]))
    ensures Translate(AnyOf([Typed("string"), AllOf([Typed("number"), Typed("boolean")])]))
         == Normal("string | number & boolean")
  {
    var strings, numbers, booleans := Typed("string"), Typed("number"), Typed("boolean");
    assert Translate(strings) == Normal("string") by {
      StringRendering(strings, None);
    }
    assert Translate(numbers) == Normal("number") by {
      NumberRendering(numbers);
    }
    assert Translate(booleans) == Normal("boolean") by {
      KeywordRendering(booleans);
    }
    RenderingIsAmbiguous(strings, numbers, booleans);
    AmbiguityText();
  }

  /** An enum value `{toString: 1}` makes both a string and a number node
      throw, directly or from inside an array, while `"a"` beside it does
      not matter: the object has no callable `toString` of its own and its
      inherited `valueOf` returns the object itself. */
  lemma ShadowedToStringEnumThrows(ty: string)
    requires ty == "string" || ty == "number"
    ensures var o := JObject([Member("toString", JNumber(1))]);
            && Translate(Enumerated(ty, [o])) == Throw(TypeError)
            && Translate(Enumerated(ty, [JString("a"), JArray([o])])) == Throw(TypeError)
  {
    var o := JObject([Member("toString", JNumber(1))]);
    assert ShadowsToString(o) by {
      assert o.members[0].key == "toString";
    }
    assert ShadowsToString(JArray([o])) by {
      assert [o][0] == o;
    }
    var direct, nested := Enumerated(ty, [o]), Enumerated(ty, [JString("a"), JArray([o])]);
    assert direct.enumValues.value[0] == o;
    assert nested.enumValues.value[1] == JArray([o]);
    if ty == "string" {
      StringRendering(direct, None);
      StringRendering(nested, None);
    } else {
      NumberRendering(direct);
      NumberRendering(nested);
    }
  }
}

=== FILE: translator_properties.dfy ===
/** What the translator promises, stated over all schemas: the rendering of
    each `type`, which keywords take precedence over which, when a field is
    marked optional, when translation throws, and that every sub-schema the
    translator descends into is rendered verbatim inside its parent. */
module TranslatorProperties {
  import opened Text
  import opened Js
  import opened Schemas
  import opened Translator

  /** The `?` after a key, or nothing. */
  function OptionalMark(required: Option<seq<string>>, p: Property): string {
    if IsOptionalField(required, p) then "?" else ""
  }

  /** A non-object input renders as the name `typeof` gives it. */
  lemma NonObjectRendersTypeof(s: Schema)
    requires !s.Node?
    ensures s.Null? ==> Translate(s) == Normal("object")
    ensures s.Primitive? ==> Translate(s) == Normal(TypeofName(s.kind))
  {
  }

  /** An object with `properties` renders as `{\n`, one line per entry in
      order, each `  key: T` or `  key?: T`, joined by `;\n`, then `;\n}`.
      It throws exactly when some entry's schema is `null` or `undefined` or
      rendering some entry's schema throws. */
  lemma ObjectRendering(s: Schema)
    requires s.Node? && s.ty == Some("object") && s.properties.Properties?
    ensures var es := s.properties.entries;
      Translate(s).Normal? <==>
        forall i :: 0 <= i < |es| ==> !IsNullish(es[i].schema) && Translate(es[i].schema).Normal?
    ensures var es := s.properties.entries;
      Translate(s).Normal? ==>
        (forall i :: 0 <= i < |es| ==> Translate(es[i].schema).Normal?) &&
        Translate(s).value ==
          "{\n" +
          Join(seq(|es|, i requires 0 <= i < |es| && Translate(es[i].schema).Normal? =>
                     "  " + es[i].key + OptionalMark(s.required, es[i]) + ": " + Translate(es[i].schema).value),
               ";\n") +
          ";\n}"
  {
    var es := s.properties.entries;
    var rs := seq(|es|, i requires 0 <= i < |es| => FieldLine(s.required, es[i], Translate(es[i].schema)));
    assert Translate(s) == (var lines :- Collect(rs); Normal("{\n" + Join(lines, ";\n") + ";\n}"));
    assert forall i :: 0 <= i < |es| ==>
      (rs[i].Normal? <==> !IsNullish(es[i].schema) && Translate(es[i].schema).Normal?);
    if Translate(s).Normal? {
      var lines := Collect(rs).value;
      assert forall i :: 0 <= i < |es| ==> Translate(es[i].schema).Normal?;
      var expected := seq(|es|, i requires 0 <= i < |es| && Translate(es[i].schema).Normal? =>
                        "  " + es[i].key + OptionalMark(s.required, es[i]) + ": " + Translate(es[i].schema).value);
      forall i | 0 <= i < |es|
        ensures lines[i] == expected[i]
      {
        assert lines[i] == rs[i].value;
      }
      assert lines == expected;
    }
  }

  /** A field is marked `?` exactly when the parent has a `required` list
      without its key or its schema carries the optionality marker; with no
      `required` list only the marker can make it optional. */
  lemma FieldOptionality(required: Option<seq<string>>, p: Property, t: string)
    requires !IsNullish(p.schema)
    ensures FieldLine(required, p, Normal(t)) == Normal("  " + p.key + "?: " + t) <==>
              (required.Some? && p.key !in required.value) || (p.schema.Node? && p.schema.optionalMarker)
    ensures required.None? ==>
              (FieldLine(required, p, Normal(t)) == Normal("  " + p.key + "?: " + t) <==> p.schema.Node? && p.schema.optionalMarker)
    ensures required == Some([]) ==> FieldLine(required, p, Normal(t)) == Normal("  " + p.key + "?: " + t)
  {
    if !IsOptionalField(required, p) {
      var plain := "  " + p.key + ": " + t;
      var marked := "  " + p.key + "?: " + t;
      assert |plain| != |marked|;
    }
  }

  /** Empty `properties` still produce the braces and one separator. */
  lemma EmptyObjectRendering(s: Schema)
    requires s.Node? && s.ty == Some("object") && s.properties == Properties([])
    ensures Translate(s) == Normal("{\n;\n}")
  {
    ObjectRendering(s);
    var expected := seq(0, i requires 0 <= i < 0 => "");
    assert Join(expected, ";\n") == "";
    assert "{\n" + "" + ";\n}" == "{\n;\n}";
  }

  /** An object without `properties` is an open string-keyed record,
      whatever else the node holds. */
  lemma OpenObjectRendering(s: Schema)
    requires s.Node? && s.ty == Some("object") && s.properties.NoProperties?
    ensures Translate(s) == Normal("Record<string, any>")
  {
  }

  /** An array with `items` wraps the items' rendering in `Array<...>`;
      without `items`, or with `null` or `undefined` there, it is `any[]`. */
  lemma ArrayRendering(s: Schema)
    requires s.Node? && s.ty == Some("array")
    ensures s.items.Some? && !IsNullish(s.items.value) ==>
              (Translate(s).Normal? <==> Translate(s.items.value).Normal?) &&
              (Translate(s).Normal? ==> Translate(s).value == "Array<" + Translate(s.items.value).value + ">")
    ensures s.items.None? || IsNullish(s.items.value) ==> Translate(s) == Normal("any[]")
  {
  }

  /** A string node with `enum` renders every value in quotes, in order,
      joined by ` | `, and throws exactly when converting one of them to a
      string throws; `format` is then ignored. Without `enum` a `binary`
      format is `File` and anything else is `string`. */
  lemma StringRendering(s: Schema, f: Option<string>)
    requires s.Node? && s.ty == Some("string")
    ensures s.enumValues.Some? ==> Translate(s) == QuotedUnion(s.enumValues.value)
    ensures s.enumValues.Some? ==>
              (Translate(s).Throw? <==>
                 exists i :: 0 <= i < |s.enumValues.value| && ShadowsToString(s.enumValues.value[i]))
    ensures s.enumValues.Some? ==> Translate(s.(format := f)) == Translate(s)
    ensures s.enumValues.None? ==> Translate(s) == Normal(if s.format == Some("binary") then "File" else "string")
  {
  }

  /** A string enum of plain strings `[a, b]` renders as `"a" | "b"`. */
  lemma StringEnumOfTwo(s: Schema, a: string, b: string)
    requires s.Node? && s.ty == Some("string") && s.enumValues == Some([JString(a), JString(b)])
    ensures Translate(s) == Normal("\"" + a + "\" | \"" + b + "\"")
  {
    assert Translate(s) == QuotedUnion(s.enumValues.value);
    QuotedUnionOfTwo(a, b);
  }

  lemma QuotedUnionOfTwo(a: string, b: string)
    ensures QuotedUnion([JString(a), JString(b)]) == Normal("\"" + a + "\" | \"" + b + "\"")
  {
    var vs := [JString(a), JString(b)];
    assert vs[1..] == [JString(b)];
    assert Quote(JString(a)) == Normal("\"" + a + "\"");
    assert QuotedUnion(vs[1..]) == Normal("\"" + b + "\"");
    QuotedPairText(a, b);
  }

  lemma QuotedPairText(a: string, b: string)
    ensures "\"" + a + "\"" + " | " + ("\"" + b + "\"") == "\"" + a + "\" | \"" + b + "\""
  {
    assert "\"" + " | " + "\"" == "\" | \"";
  }

  /** `integer` renders exactly as `number` does: an enum becomes its values
      joined by ` | ` without quotes, throwing exactly when converting one
      of them throws, and otherwise the node is `number`. */
  lemma NumberRendering(s: Schema)
    requires s.Node? && (s.ty == Some("number") || s.ty == Some("integer"))
    ensures Translate(s) == Translate(s.(ty := Some("number")))
    ensures s.enumValues.Some? ==> Translate(s) == ArrayJoin(s.enumValues.value, " | ")
    ensures s.enumValues.Some? ==>
              (Translate(s).Throw? <==>
                 exists i :: 0 <= i < |s.enumValues.value| && ShadowsToString(s.enumValues.value[i]))
    ensures s.enumValues.None? ==> Translate(s) == Normal("number")
  {
    var asNumber := s.(ty := Some("number"));
    NumberTypeNames(s.ty);
    NumberTypeNames(asNumber.ty);
    if s.enumValues.Some? {
      assert Translate(s) == ArrayJoin(s.enumValues.value, " | ") == Translate(asNumber);
    } else {
      assert Translate(s) == Normal("number") == Translate(asNumber);
    }
  }

  /** The two number type names are not the names tested before them. */
  lemma NumberTypeNames(ty: Option<string>)
    requires ty == Some("number") || ty == Some("integer")
    ensures ty != Some("object") && ty != Some("array") && ty != Some("string")
  {
  }

  /** An integer enum renders its values in decimal, in order, unquoted. */
  lemma IntegerEnumOfTwo(s: Schema, m: int, n: int)
    requires s.Node? && s.ty == Some("integer") && s.enumValues == Some([JNumber(m), JNumber(n)])
    ensures Translate(s) == Normal(IntToDecimal(m) + " | " + IntToDecimal(n))
  {
    assert Translate(s) == ArrayJoin(s.enumValues.value, " | ");
    ArrayJoinOfTwoNumbers(m, n);
  }

  lemma ArrayJoinOfTwoNumbers(m: int, n: int)
    ensures ArrayJoin([JNumber(m), JNumber(n)], " | ") == Normal(IntToDecimal(m) + " | " + IntToDecimal(n))
  {
    var vs := [JNumber(m), JNumber(n)];
    assert vs[1..] == [JNumber(n)];
    assert !ShadowsToString(vs[0]) && !ShadowsToString(vs[1]);
    assert JoinElement(JNumber(m)) == Normal(IntToDecimal(m));
    assert ToString(JNumber(n)) == Normal(IntToDecimal(n));
    assert ArrayJoin(vs[1..], " | ") == JoinElement(JNumber(n));
  }

  /** The two enum renderings disagree on `null`: a string enum quotes the
      text `null`, a number enum joins it as nothing. */
  lemma NullEnumValue(s: Schema)
    requires s.Node? && s.enumValues == Some([JNull])
    ensures s.ty == Some("string") ==> Translate(s) == Normal("\"null\"")
    ensures s.ty == Some("number") ==> Translate(s) == Normal("")
  {
    assert Quote(JNull) == Normal("\"" + "null" + "\"");
    assert QuotedUnion([JNull]) == Quote(JNull);
    assert "\"" + "null" + "\"" == "\"null\"";
    assert ArrayJoin([JNull], " | ") == JoinElement(JNull) == Normal("");
  }

  /** A present but empty `enum` renders as the empty string, for strings
      and numbers alike. */
  lemma EmptyEnumRendering(s: Schema)
    requires s.Node? && s.enumValues == Some([])
    requires s.ty == Some("string") || s.ty == Some("number") || s.ty == Some("integer")
    ensures Translate(s) == Normal("")
  {
    assert QuotedUnion([]) == Normal("");
    assert ArrayJoin([], " | ") == Normal("");
  }

  /** `boolean` and `null` are fixed keywords. */
  lemma KeywordRendering(s: Schema)
    requires s.Node?
    ensures s.ty == Some("boolean") ==> Translate(s) == Normal("boolean")
    ensures s.ty == Some("null") ==> Translate(s) == Normal("null")
  {
  }

  /** The `type` values the translator dispatches on. */
  predicate IsDispatchedType(ty: Option<string>) {
    || ty == Some("object") || ty == Some("array") || ty == Some("string")
    || ty == Some("number") || ty == Some("integer") || ty == Some("boolean") || ty == Some("null")
  }

  /** A node with a recognised `type` ignores the combinators altogether. */
  lemma TypedIgnoresCombinators(s: Schema, anyOf: SubSchemas, oneOf: SubSchemas, allOf: SubSchemas)
    requires s.Node? && IsDispatchedType(s.ty)
    ensures Translate(s.(anyOf := anyOf, oneOf := oneOf, allOf := allOf)) == Translate(s)
  {
  }

  /** Any `type` the dispatch does not recognise behaves as no `type`. */
  lemma UnknownTypeIsUntyped(s: Schema)
    requires s.Node? && !IsDispatchedType(s.ty)
    ensures Translate(s) == Translate(s.(ty := None))
  {
    var untyped := s.(ty := None);
    assert Translate(s) == RenderUntyped(s);
    assert Translate(untyped) == RenderUntyped(untyped);
    assert RenderUntyped(s) == RenderUntyped(untyped);
  }

  /** `anyOf` takes precedence: `oneOf` and `allOf` are then ignored. */
  lemma AnyOfPrecedence(s: Schema, oneOf: SubSchemas, allOf: SubSchemas)
    requires s.Node? && !IsDispatchedType(s.ty) && s.anyOf.SubSchemas?
    ensures Translate(s.(oneOf := oneOf, allOf := allOf)) == Translate(s)
  {
  }

  /** Without `anyOf`, `oneOf` takes precedence over `allOf`. */
  lemma OneOfPrecedence(s: Schema, allOf: SubSchemas)
    requires s.Node? && !IsDispatchedType(s.ty) && s.anyOf.NoSubSchemas? && s.oneOf.SubSchemas?
    ensures Translate(s.(allOf := allOf)) == Translate(s)
  {
  }

  /** `oneOf` renders exactly as `anyOf` with the same members would: the
      exclusive and the inclusive union are not told apart. */
  lemma OneOfRendersAsAnyOf(s: Schema, members: seq<Schema>)
    requires s.Node? && !IsDispatchedType(s.ty)
    ensures Translate(s.(anyOf := NoSubSchemas, oneOf := SubSchemas(members)))
         == Translate(s.(anyOf := SubSchemas(members)))
  {
  }

  /** An untyped node with combinator members renders them joined by ` | `
      for a union and ` & ` for `allOf`; with no combinator it is `any`. */
  lemma CombinatorRendering(s: Schema)
    requires s.Node? && !IsDispatchedType(s.ty)
    ensures s.anyOf.NoSubSchemas? && s.oneOf.NoSubSchemas? && s.allOf.NoSubSchemas? ==> Translate(s) == Normal("any")
    ensures s.anyOf.NoSubSchemas? && s.oneOf.NoSubSchemas? && s.allOf.SubSchemas? ==>
              Translate(s) == MapJoin(RenderEach(s.allOf), " & ")
    ensures s.anyOf.SubSchemas? ==>
              Translate(s) == MapJoin(RenderEach(s.anyOf), " | ")
  {
  }

  /** A present but empty combinator list renders as the empty string. */
  lemma EmptyCombinatorRendering(s: Schema)
    requires s.Node? && !IsDispatchedType(s.ty)
    requires s.anyOf == SubSchemas([])
          || (s.anyOf.NoSubSchemas? && s.oneOf == SubSchemas([]))
          || (s.anyOf.NoSubSchemas? && s.oneOf.NoSubSchemas? && s.allOf == SubSchemas([]))
    ensures Translate(s) == Normal("")
  {
    assert Collect<string>([]) == Normal([]);
  }

  /** Two members of a union render as `A | B`, of an intersection as
      `A & B`. */
  lemma CombinatorOfTwo(s: Schema, a: Schema, b: Schema)
    requires s.Node? && !IsDispatchedType(s.ty)
    requires Translate(a).Normal? && Translate(b).Normal?
    ensures s.anyOf == SubSchemas([a, b]) ==>
              Translate(s) == Normal(Translate(a).value + " | " + Translate(b).value)
    ensures s.anyOf.NoSubSchemas? && s.oneOf.NoSubSchemas? && s.allOf == SubSchemas([a, b]) ==>
              Translate(s) == Normal(Translate(a).value + " & " + Translate(b).value)
  {
    var rs := RenderEach(SubSchemas([a, b]));
    assert rs == [Translate(a), Translate(b)];
    assert rs[1..] == [Translate(b)];
  }

  /** An object with two renderable properties renders as two lines, in
      the order the properties are listed. */
  lemma ObjectOfTwo(s: Schema, p: Property, q: Property)
    requires s.Node? && s.ty == Some("object") && s.properties == Properties([p, q])
    requires !IsNullish(p.schema) && !IsNullish(q.schema)
    requires Translate(p.schema).Normal? && Translate(q.schema).Normal?
    ensures var l1 := "  " + p.key + OptionalMark(s.required, p) + ": " + Translate(p.schema).value;
            var l2 := "  " + q.key + OptionalMark(s.required, q) + ": " + Translate(q.schema).value;
            Translate(s) == Normal("{\n" + (l1 + ";\n" + l2) + ";\n}")
  {
    var es := [p, q];
    var rs := seq(|es|, i requires 0 <= i < |es| => FieldLine(s.required, es[i], Translate(es[i].schema)));
    assert Translate(s) == (var lines :- Collect(rs); Normal("{\n" + Join(lines, ";\n") + ";\n}"));
    var l1 := "  " + p.key + OptionalMark(s.required, p) + ": " + Translate(p.schema).value;
    var l2 := "  " + q.key + OptionalMark(s.required, q) + ": " + Translate(q.schema).value;
    FieldLineText(s.required, p, Translate(p.schema).value);
    FieldLineText(s.required, q, Translate(q.schema).value);
    assert rs == [Normal(l1), Normal(l2)];
    assert Collect(rs).Normal?;
    assert Collect(rs).value == [l1, l2];
    assert [l1, l2][1..] == [l2];
    assert Join([l1, l2], ";\n") == l1 + ";\n" + l2;
  }

  /** A field line in terms of `OptionalMark`. */
  lemma FieldLineText(required: Option<seq<string>>, p: Property, t: string)
    requires !IsNullish(p.schema)
    ensures FieldLine(required, p, Normal(t)) == Normal("  " + p.key + OptionalMark(required, p) + ": " + t)
  {
    assert "?" + ": " == "?: ";
    assert "" + ": " == ": ";
  }

  /** A property whose schema is `null` or `undefined` makes the object's
      translation throw. */
  lemma NullishFieldThrows(s: Schema, i: nat)
    requires s.Node? && s.ty == Some("object") && s.properties.Properties?
    requires i < |s.properties.entries| && IsNullish(s.properties.entries[i].schema)
    ensures Translate(s).Throw?
  {
    ObjectRendering(s);
  }

  /** The sub-schemas the translator descends into for `s`: the property
      schemas of an object, the items of an array, or the members of the
      combinator that takes precedence. */
  function Operands(s: Schema): seq<Schema> {
    match s
    case Node(_, _, _, _, _, _, _, _, _, _) =>
      if s.ty == Some("object") then
        match s.properties
        case Properties(es) => seq(|es|, i requires 0 <= i < |es| => es[i].schema)
        case NoProperties => []
      else if s.ty == Some("array") then
        match s.items
        case Some(item) => if IsNullish(item) then [] else [item]
        case None => []
      else if IsDispatchedType(s.ty) then []
      else if s.anyOf.SubSchemas? then s.anyOf.members
      else if s.oneOf.SubSchemas? then s.oneOf.members
      else if s.allOf.SubSchemas? then s.allOf.members
      else []
    case _ => []
  }

  lemma MapJoinEmbeds(rs: seq<Completion<string>>, sep: string, i: nat)
    requires i < |rs| && MapJoin(rs, sep).Normal?
    ensures rs[i].Normal? && IsInfix(rs[i].value, MapJoin(rs, sep).value)
  {
    JoinContainsParts(Collect(rs).value, sep, i);
  }

  /** Faithful structural rendering: when `s` renders, every sub-schema the
      translator descends into renders too, and its text appears verbatim
      inside the text of `s`. */
  lemma OperandsEmbedded(s: Schema, i: nat)
    requires i < |Operands(s)| && Translate(s).Normal?
    ensures Translate(Operands(s)[i]).Normal?
    ensures IsInfix(Translate(Operands(s)[i]).value, Translate(s).value)
  {
    var c := Operands(s)[i];
    if s.ty == Some("object") {
      PropertyEmbedded(s, i);
    } else if s.ty == Some("array") {
      InfixOfWhole(Translate(c).value);
      InfixInContext(Translate(c).value, "Array<", Translate(c).value, ">");
    } else {
      MemberEmbedded(s, i);
    }
  }

  /** The combinator case: the rendering of a member appears inside the
      rendering of the node. */
  lemma MemberEmbedded(s: Schema, i: nat)
    requires s.Node? && !IsDispatchedType(s.ty)
    requires i < |Operands(s)| && Translate(s).Normal?
    ensures Translate(Operands(s)[i]).Normal?
    ensures IsInfix(Translate(Operands(s)[i]).value, Translate(s).value)
  {
    CombinatorRendering(s);
    if s.anyOf.SubSchemas? {
      MapJoinEmbeds(RenderEach(s.anyOf), " | ", i);
    } else if s.oneOf.SubSchemas? {
      OneOfRendersAsAnyOf(s, s.oneOf.members);
      assert s == s.(anyOf := NoSubSchemas, oneOf := SubSchemas(s.oneOf.members));
      CombinatorRendering(s.(anyOf := SubSchemas(s.oneOf.members)));
      MapJoinEmbeds(RenderEach(s.oneOf), " | ", i);
    } else {
      MapJoinEmbeds(RenderEach(s.allOf), " & ", i);
    }
  }

  /** The object case: the rendering of a property's schema appears inside
      the object's rendering. */
  lemma PropertyEmbedded(s: Schema, i: nat)
    requires s.Node? && s.ty == Some("object") && s.properties.Properties?
    requires i < |s.properties.entries| && Translate(s).Normal?
    ensures Translate(s.properties.entries[i].schema).Normal?
    ensures IsInfix(Translate(s.properties.entries[i].schema).value, Translate(s).value)
  {
    ObjectRendering(s);
    var es := s.properties.entries;
    var t := Translate(es[i].schema).value;
    var lines := seq(|es|, i requires 0 <= i < |es| && Translate(es[i].schema).Normal? =>
                   "  " + es[i].key + OptionalMark(s.required, es[i]) + ": " + Translate(es[i].schema).value);
    var body := Join(lines, ";\n");
    JoinContainsParts(lines, ";\n", i);
    InfixOfWhole(t);
    InfixInContext(t, "  " + es[i].key + OptionalMark(s.required, es[i]) + ": ", t, "");
    assert lines[i] == "  " + es[i].key + OptionalMark(s.required, es[i]) + ": " + t + "";
    InfixTransitive(t, lines[i], body);
    InfixOfWhole(body);
    InfixInContext(body, "{\n", body, ";\n}");
    InfixTransitive(t, body, Translate(s).value);
  }

  lemma InfixTransitive(a: string, b: string, c: string)
    requires IsInfix(a, b) && IsInfix(b, c)
    ensures IsInfix(a, c)
  {
    var i, j :| 0 <= i <= j <= |b| && b[i..j] == a;
    var k, l :| 0 <= k <= l <= |c| && c[k..l] == b;
    forall t | 0 <= t < j - i
      ensures c[k + i..k + j][t] == a[t]
    {
      assert a[t] == b[i + t] == c[k + i + t];
    }
    assert c[k + i..k + j] == a;
  }
}
